=== FILE: README.md ===
# Fashion trends and eco-scores — a Dafny model

This project models the data-handling core of a small fashion-sustainability
tool. The tool has three parts:

- **The batch extraction script** (`scripts/pull-trends.py`). It reads the
  keyword table (category, keyword), asks the trends provider for each
  keyword's interest over time, and writes a trend cache. The cache is a list
  of records `{keyword, date, trend_score, category}`.
- **The API backend** (`backend/main.py`). It serves the trend cache:
  - the sorted keyword list and the keywords grouped by category
    (`/keywords`);
  - the records of one keyword, case-insensitively, enriched with an eco-score
    and a brand label (`/trends`);
  - a per-keyword, per-brand summary (`/trends/summary`) with the latest
    score, the up/down/stable direction, the number of data points and the
    default eco-score 5;
  - the keyword count of `/` and `/reload`.
- **The dashboard** (`app.py`). It loads the same keyword table and the
  eco-score table, drops the "Unnamed" columns, and strips names and text
  cells. Loading fails when two kept columns strip to the same name. It then
  finds a keyword's eco-score rows in two tiers: exact
  matches first, substring matches only when there is no exact match.

`data_import.py` contributes `batch_keywords`, which cuts a list into
consecutive batches of `n`.

The modules follow that structure:

| module | file | models |
|---|---|---|
| `Wrappers` | wrappers.dfy | `Option` and `Result` |
| `Text` | text.dfy | Python's `str.strip` (the `str.isspace` set), ASCII `lower`, and substring search |
| `Seqs`, `Sorting` | seqs.dfy, sorting.dfy | subsequences, flattening, distinctness, and `sorted(set(...))` on strings |
| `EcoTable` | eco_table.dfy | `load_ecoscores` clean-up and `find_ecoscore_rows` |
| `Keywords` | keywords.dfy | `load_keywords` (identical in app.py and the script) |
| `TrendCache` | trend_cache.dfy | the cache record and selecting a keyword's records |
| `PullTrends` | pull_trends.dfy | `pull_interest_over_time` (both copies) and the extraction loop of `main` |
| `Backend` | backend.dfy | `get_unique_keywords`, `calculate_trend_direction`, `/keywords`, `/trends`, `/trends/summary`, the keyword count |
| `Batching` | batching.dfy | `batch_keywords` |
| `Pipeline` | pipeline.dfy | end-to-end facts from keyword table to API responses |

Modelling choices:

- **Missing cells.** A missing (NaN) cell is `Option.None` or `Cell.Missing`.
  Where the source turns it into text with `astype(str)`, the model turns it
  into the string `"nan"`, as pandas does. So a row with a category but no
  keyword survives `load_keywords` with the keyword `"nan"`.
- **Numbers.** Trend scores are integers; a non-numeric score is `None`.
- **Column types.** A column of the eco-score table carries an explicit
  "text" flag in place of pandas' `object` dtype.
- **Provider.** The trends provider is replaced by the response it gave for
  each keyword: a list of points, or a raised error.

## Model

| member | source | states |
|---|---|---|
| Text.StripTrims | app.py:27 | what `strip` returns neither starts nor ends with Python whitespace |
| Text.StripInfix | app.py:27 | what `strip` returns is the input with an all-whitespace prefix and an all-whitespace suffix cut off, and nothing else |
| Text.StripLowerCommute | app.py:80 | stripping and lower-casing commute, so `keyword.strip().lower()` can be read either way |
| Text.Normalise | app.py:80 | `keyword.strip().lower()` is trimmed and no longer than the keyword |
| Text.NormaliseInfix | app.py:80 | `keyword.strip().lower()` is the lower-cased infix left after cutting the keyword's leading and trailing whitespace runs, and lower-casing it again changes nothing |
| Text.NormaliseIdempotent | app.py:80 | normalising an already normalised keyword changes nothing |
| Text.Contains | app.py:99 | true exactly when the needle occurs at some position of the haystack |
| Text.EqualContains | app.py:89-99 | a string contains itself, so an exact cell hit is also a substring hit |
| Sorting.SortedSet | backend/main.py:59 | the result is strictly increasing in lexicographic order and has exactly the input's elements |
| Sorting.SortedUnique | backend/main.py:59 | two strictly sorted lists with the same elements are equal, so `sorted(set(...))` has exactly one possible answer |
| EcoTable.KeptColumns | app.py:40 | the kept positions are increasing, none has a name starting with "Unnamed", and every other column is kept |
| EcoTable.CleanName | app.py:43 | the name with its leading and trailing whitespace runs cut off: trimmed, and an infix of the name |
| EcoTable.CleanCell | app.py:45-48 | a text-column cell becomes the string `astype(str)` gives for it with its leading and trailing whitespace runs cut off; any other cell is kept as it is |
| EcoTable.CleanColumns | app.py:40-43 | one column per kept position, with its text flag and its name stripped |
| EcoTable.CleanRow | app.py:45-48 | one cell per kept position: text cells stripped as by CleanCell, other cells unchanged |
| EcoTable.CleanTable | app.py:40-48 | keeps every row; keeps exactly the non-"Unnamed" columns in order with their names stripped; every text-column cell becomes the stripped text of the original cell; other cells are unchanged |
| EcoTable.FirstDuplicate | app.py:45-47 | nothing exactly when the names are distinct; otherwise a name that occurs at two positions |
| EcoTable.LoadEcoScores | app.py:35-50 | fails, naming the clash, exactly when two kept columns strip to the same name (pandas then raises at `df[c].dtype`, because `df[c]` is a frame); otherwise it is the cleaned table |
| EcoTable.PaddedUnnamedSurvives | app.py:40-43 | a column named " Unnamed: 0" passes the filter, because the filter runs before the names are stripped, and it comes out named "Unnamed: 0" |
| EcoTable.Select | app.py:91 | `eco_df[mask]` with the tag: never more rows than the table, and every row tagged with the tier |
| EcoTable.SelectMembers | app.py:91 | a tagged row is selected exactly when it carries the tier and the mask marks a table row equal to it |
| EcoTable.Matching | app.py:86-104 | reference definition of one tier: every tagged row is a table row matching the tier, and every matching table row appears tagged with the tier |
| EcoTable.MatchingSubsequence | app.py:91 | a tier lists table rows in table order |
| EcoTable.TextColumns | app.py:82 | exactly the positions of the text columns |
| EcoTable.TierMask | app.py:87-89 | the OR over the text columns marks a row exactly when one of the given columns hits the keyword |
| EcoTable.MaskMarksMatches | app.py:86-99 | over all text columns, the mask marks exactly the rows that match the tier |
| EcoTable.SelectIsMatching | app.py:91 | selecting rows by such a mask gives the reference tier |
| EcoTable.NothingMatches | app.py:106 | with no matching row, a tier is empty |
| EcoTable.FindEcoscoreRows | app.py:74-106 | the result is the exact tier when that is non-empty, and otherwise the contains tier, possibly empty |
| EcoTable.ExactHitContains | app.py:89-99 | a row that matches exactly also matches by substring |
| EcoTable.NeverMixes | app.py:91-104 | the rows returned are either all "exact" or all "contains" |
| EcoTable.ContainsOnlyWithoutExact | app.py:91-104 | a "contains" row is returned only when no row of the table matches exactly |
| EcoTable.ResultIsSubsequence | app.py:91-101 | the returned rows are rows of the table, in table order |
| EcoTable.ExactRowFound | app.py:86-94 | a row with a text cell equal to the normalised keyword is returned, and every returned row is tagged exact |
| EcoTable.AbsentKeywordEmpty | app.py:96-106 | when no text cell contains the keyword, the result is empty |
| EcoTable.NoTextColumnsEmpty | app.py:82-84 | a table with no text column yields no rows |
| EcoTable.KeywordNormalisationIrrelevant | app.py:80 | the keyword and its stripped, lower-cased form give the same result |
| EcoTable.LoadedCellFound | app.py:35-94 | when loading succeeds, a text cell whose stripped, lower-cased value is the keyword's normal form makes its cleaned row an exact result |
| Keywords.Candidates | app.py:27-29 | the rows left after stripping, `dropna` and the empty-keyword filter: no more than the raw rows, each with a trimmed, non-empty keyword |
| Keywords.CandidatesFromRows | app.py:27-29 | every row left after stripping, `dropna` and the empty-keyword filter comes from a raw row with a category and a non-empty stripped keyword |
| Keywords.CandidatesCoverRows | app.py:27-29 | every raw row with a category and a non-empty stripped keyword is left after the filters |
| Keywords.CandidatesAppend | app.py:27-29 | the filters treat rows independently: cleaning two files' rows one after the other is cleaning their concatenation |
| Keywords.DedupFrom | scripts/pull-trends.py:26 | the result has distinct keywords, is a subsequence of its input, has exactly the input's keywords minus those already seen, keeps every first occurrence, and lists its keywords in the order of their first rows |
| Keywords.DedupOfUnique | scripts/pull-trends.py:26 | any list meeting that description is the deduplicated list itself, so the rows kept and their order are fully determined (for rows A, B, A the answer is A, B) |
| Keywords.LoadKeywords | app.py:22-31 | keywords are trimmed, non-empty and distinct; each entry traces back to a raw row with a category; every surviving raw row's keyword is present; the result is a subsequence of the cleaned rows, the first row of each keyword is the one kept, and keywords appear in the order of their first rows |
| Keywords.FirstRowKept | scripts/pull-trends.py:19-27 | the first surviving row with a given keyword is kept with its own category, and no other category is kept for that keyword |
| Keywords.MissingKeywordReadsNan | scripts/pull-trends.py:23-24 | a row with a category and a missing keyword is kept with the keyword "nan", because the keyword is turned into text before `dropna` |
| PullTrends.PullInterestOverTime | scripts/pull-trends.py:29-53 | every row carries the queried keyword; a raised error gives no rows; otherwise there is one row per provider point |
| PullTrends.NormaliseRoundTrip | scripts/pull-trends.py:43-49 | the rows carry exactly the provider's dates and scores, in the provider's order |
| PullTrends.AppPullInterestOverTime | app.py:54-71 | the dashboard's copy fails exactly when the provider raises, and otherwise gives the same rows as the script's copy |
| PullTrends.StampCategory | scripts/pull-trends.py:90-93 | each record keeps its row's keyword, date and score and gains the keyword's category |
| PullTrends.KeywordRecords | scripts/pull-trends.py:87-94 | every record of a keyword carries that keyword and its category |
| PullTrends.ExtractAll | scripts/pull-trends.py:81-94 | every cached record carries the keyword and category of some loaded keyword |
| PullTrends.ExtractAllIsConcatenation | scripts/pull-trends.py:73-94 | the cache is the concatenation, in keyword order, of each keyword's records |
| PullTrends.RecordsOfKeyword | scripts/pull-trends.py:81-94 | with distinct keywords, the cache's records for a keyword are exactly that keyword's block |
| TrendCache.RecordsFor | backend/main.py:199 | exactly the records with the keyword, in cache order |
| TrendCache.RecordsForAppend | backend/main.py:199 | selecting from a concatenation gives the concatenation of the selections |
| Backend.KeywordColumn | backend/main.py:59 | the column holds exactly the keywords in the cache |
| Backend.UniqueKeywords | backend/main.py:57-59 | the result is strictly sorted, holds exactly the cache's keywords, and has as many entries as there are distinct keywords |
| Backend.UniqueKeywordsCanonical | backend/main.py:57-59 | any strictly sorted list of the cache's keywords is the result |
| Backend.KeywordsCount | backend/main.py:111-115 | the count is the number of distinct keywords in the cache |
| Backend.AppendRecordCount | backend/main.py:239-242 | adding one record raises the keyword count by one when its keyword is new, and leaves it unchanged otherwise |
| Backend.TrendDirection | backend/main.py:61-72 | fewer than two scores is stable; up exactly when last minus first exceeds 5; down exactly when it is below -5; a non-numeric end score compares false and reads stable |
| Backend.ReversedDirection | backend/main.py:66-72 | reading the scores backwards swaps up and down and keeps stable |
| Backend.ShiftedDirection | backend/main.py:66 | adding the same amount to every score leaves the direction unchanged |
| Backend.DirectionExamples | backend/main.py:63-72 | a change of exactly 5 either way is stable; middle scores do not matter; a missing first score gives stable |
| Backend.AddToGroups | backend/main.py:128-133 | categories and the keywords within a category stay distinct, and afterwards the listing holds exactly what it held plus the new pair |
| Backend.AddToGroupsCategories | backend/main.py:129-130 | a new category is added after all listed ones, and the listed categories keep their order |
| Backend.AddToGroupsKeywords | backend/main.py:131-132 | a new keyword is added after the keywords already listed under its category; no other keyword list changes |
| Backend.CategoryOrder | backend/main.py:126-133 | `by_category` lists the categories in the order of their first record |
| Backend.KeywordOrder | backend/main.py:126-133 | under each category, `by_category` lists the keywords in the order of their first record with that category |
| Backend.GroupByCategory | backend/main.py:126-133 | categories are distinct, keywords within one are distinct, and a keyword is listed under a category exactly when some record has both |
| Backend.ListedIffRecord | backend/main.py:126-133 | a keyword is listed under a category exactly when one of that keyword's records has the category |
| Backend.RecordFiled | backend/main.py:129 | every record is listed under its category, and a record without a category under "Other" |
| Backend.GetKeywords | backend/main.py:118-139 | `count` is the number of distinct keywords, `keywords` is sorted and complete, and `by_category` lists exactly the (category, keyword) pairs of the records |
| Backend.GroupedKeywordsAreKeywords | backend/main.py:124-138 | every keyword listed under a category is also in `keywords` |
| Backend.BrandLabel | backend/main.py:180 | the label is never empty: a given non-empty brand is used as given, and a missing or empty brand reads "Generic" |
| Backend.FilterByQuery | backend/main.py:164 | the records whose keyword equals the query up to letter case, all of them and nothing else, as a subsequence of the cache |
| Backend.FilterByQueryAppend | backend/main.py:164 | filtering a concatenation is the concatenation of the filtered parts, so each matching record stays in its place and repeats are kept |
| Backend.FilterByQueryCounts | backend/main.py:164 | a matching record occurs in the filtered list as often as in the cache; any other record does not occur |
| Backend.GetTrendsCounts | backend/main.py:164-183 | a successful response holds each matching cached record as often as the cache does, and no other record |
| Backend.GetTrends | backend/main.py:154-183 | 404 with "No trend data found for keyword: " and the query exactly when no record matches; a server error (500) exactly when a matching record's score is NaN, which the JSON response refuses to render; otherwise one enriched record per match, in order, each keeping the record, with no eco-score and the brand label |
| Backend.QueryCaseIgnored | backend/main.py:164 | the lower-cased query gives the same outcome (found or not) and, on success, the same records; a 404's detail echoes the query as given, so it differs |
| Backend.FilterSameQuery | backend/main.py:164 | two queries that agree after lower-casing select the same records |
| Backend.EcoScoreOrDefault | backend/main.py:207-210 | without an eco-score the summary uses 5 |
| Backend.SummariseKeyword | backend/main.py:196-225 | fails exactly when the keyword's latest score is not numeric. Otherwise there is one identical entry per placeholder brand, in order, with the latest score, eco-score 5, the direction of the keyword's scores and the number of its records |
| Backend.SummariseAll | backend/main.py:196-227 | fails exactly when some keyword's summary fails; otherwise one summary per keyword, in order |
| Backend.GetTrendsSummary | backend/main.py:185-227 | fails exactly when some keyword's latest score is not numeric; otherwise one summary per distinct keyword, in sorted order, each with three brand entries counting that keyword's records |
| Backend.SummaryNonEmpty | backend/main.py:199-202 | every keyword the summary visits has records, so the skip of an empty keyword never happens |
| Backend.KeywordRecordsPartition | backend/main.py:191-224 | the `data_points` of all keywords add up to the size of the cache |
| Batching.BatchKeywords | data_import.py:14-16 | a step of 0 fails and a negative step gives no batches. Otherwise the batches concatenate to the list, each holds 1 to n elements, all but the last hold exactly n, and there are ceil(len / n) of them |
| Pipeline.FetchedPointsCounted | scripts/pull-trends.py:81-94 | when there is one provider response per loaded keyword, after extraction the cache holds as many records of a loaded keyword as the provider gave points for it |
| Pipeline.OwnCategoryRecords | scripts/pull-trends.py:87-94 | a keyword's block of records carries only the keyword's own category, and is non-empty exactly when the provider gave points |
| Pipeline.ListedUnderOwnCategory | backend/main.py:126-133 | `/keywords` lists a loaded keyword under a category exactly when it is the keyword's own category and the provider gave points for it |
| Pipeline.SummaryCountsFetchedPoints | backend/main.py:224 | in a successful summary of the extracted cache, a keyword's `data_points` is the number of points the provider gave for it |

## Left out

- File and network I/O is not modelled: `read_csv` (with `header=None` and `skiprows=1`), `json.dump`/`json.load`, `os.makedirs`, and the provider session (`TrendReq`, `build_payload`). The tables and provider responses are inputs.
- `time.sleep` between requests and all `print`/logging output are not modelled; they do not affect the data.
- Dates are opaque strings. `pd.to_datetime(...).dt.date.astype(str)` is assumed to have been applied by the provider point; the dashboard's date-range filter is UI code.
- The Streamlit page (app.py:108 onward) and streamlit_app.py are left out as UI. This includes the message and stop that follow a failed `load_ecoscores`; the model's `Failure` stands for the raise.
- FastAPI routing, CORS, startup and the `/reload` re-read of the global cache are not modelled. `/reload` appears only through the keyword count before and after adding records. The constant bodies of `/` and `/brands` are left out; the brand list is used by the summary. Response rendering is modelled only where it fails: Starlette's JSON rendering refuses a NaN score, so `/trends` answers 500 for it.
- data_import.py's module-level script (reading the CSV, querying the provider per batch, merging and averaging) is I/O and float arithmetic; only `batch_keywords` is modelled.
- `average_trend` (a float mean rounded to one decimal place) is not modelled. Scores are integers, so `int(...)` of the latest score needs no truncation.
- `pd.to_numeric(..., errors="coerce")` is modelled by its outcome: a score is a number or `None`.
- `str.contains` in app.py takes the keyword as a regular expression; the model uses plain substring search. A keyword without regex metacharacters behaves the same.
- `str.lower` is modelled on ASCII letters only; other characters are unchanged. `str.strip` uses Python's full whitespace set.
- A number cell of the eco-score table is rendered as its integer digits by `astype(str)`; pandas would render a float column as "3.0". Number columns are never text columns, so the matcher does not see them.
- The trend cache record's category is absent or a string; a JSON `null` category (which `get` returns as `None`, not "Other") is not modelled.
- Backend.GetEcoScore is the source's placeholder and always returns nothing; the eco-score matcher of app.py is not wired into the backend in the source either.
- The brand query parameter of `/trends` filters nothing in the source; the model likewise uses it only for the label.
- EcoTable.CleanTable: "no column name starts with Unnamed" is stated for the names as read, not for the stripped names, because the source filters before stripping (see EcoTable.PaddedUnnamedSurvives).
- EcoTable.FindEcoscoreRows: when the table already has a column named "match_type", `exact["match_type"] = ...` (app.py:93, app.py:103) overwrites that column with the tag; the model keeps every cell of the row and carries the tag beside it. For such a table the source returns rows whose "match_type" cell differs from the table's, so EcoTable.ResultIsSubsequence holds of the model but not of the source.
- Backend.GetTrendsSummary: the summary is a list of (keyword, entries) in sorted keyword order in place of a dictionary keyed by keyword; the keys and their order are the same.

=== FILE: backend.dfy ===
/** The API backend (backend/main.py) over the trend records held in memory:
    the unique keyword list, the trend-direction classifier, the keyword
    listing grouped by category, the per-keyword lookup with its 404 error,
    and the per-keyword summary. HTTP routing is left to the caller. */
module Backend {
  import Text
  import opened Wrappers
  import opened Seqs
  import opened Sorting
  import opened TrendCache

  // ---------------------------------------------------------------------
  // Unique keywords and the keyword counts
  // ---------------------------------------------------------------------

  /** `[t['keyword'] for t in trends_data]`. */
  function KeywordColumn(data: seq<TrendRecord>): (r: seq<string>)
    ensures Elements(r) == KeywordsIn(data)
  {
    var r := seq(|data|, i requires 0 <= i < |data| => data[i].keyword);
    forall k | k in KeywordsIn(data) ensures k in Elements(r) {
      var t :| t in data && t.keyword == k;
      var i :| 0 <= i < |data| && data[i] == t;
      assert r[i] == k;
    }
    forall k | k in Elements(r) ensures k in KeywordsIn(data) {
      var i :| 0 <= i < |r| && r[i] == k;
      assert data[i] in data;
    }
    r
  }

  /** `get_unique_keywords`: `sorted(list(set(keywords)))`. */
  function UniqueKeywords(data: seq<TrendRecord>): (r: seq<string>)
    ensures StrictlySorted(r)
    ensures Elements(r) == KeywordsIn(data)
    ensures |r| == |KeywordsIn(data)|
  {
    var r := SortedSet(KeywordColumn(data));
    StrictlySortedDistinct(r);
    DistinctCardinality(r);
    r
  }

  /** The sorted unique list is the only strictly sorted list of the data's
      keywords. */
  lemma UniqueKeywordsCanonical(data: seq<TrendRecord>, ks: seq<string>)
    requires StrictlySorted(ks) && Elements(ks) == KeywordsIn(data)
    ensures UniqueKeywords(data) == ks
  {
    SortedUnique(UniqueKeywords(data), ks);
  }

  /** `keywords_count` of `/` and `/reload`. */
  function KeywordsCount(data: seq<TrendRecord>): (n: nat)
    ensures n == |KeywordsIn(data)|
  {
    |UniqueKeywords(data)|
  }

  /** Appending one record to the cache raises the keyword count by one
      exactly when its keyword is new, and leaves it unchanged otherwise. */
  lemma AppendRecordCount(data: seq<TrendRecord>, t: TrendRecord)
    ensures KeywordsCount(data + [t]) == KeywordsCount(data) + (if t.keyword in KeywordsIn(data) then 0 else 1)
  {
    KeywordsInAppend(data, t);
    if t.keyword in KeywordsIn(data) {
      assert KeywordsIn(data) + {t.keyword} == KeywordsIn(data);
    }
  }

  lemma KeywordsInAppend(data: seq<TrendRecord>, t: TrendRecord)
    ensures KeywordsIn(data + [t]) == KeywordsIn(data) + {t.keyword}
  {
    assert forall u :: u in data + [t] <==> u in data || u == t;
  }

  // ---------------------------------------------------------------------
  // Trend direction
  // ---------------------------------------------------------------------

  /** The three trend directions. */
  datatype Direction = Up | Down | Stable {
    function Label(): string {
      match this
      case Up => "up"
      case Down => "down"
      case Stable => "stable"
    }
  }

  /** `scores[-1] - scores[0]` when both ends are numbers (not NaN). */
  function Change(scores: seq<Option<int>>): Option<int> {
    if |scores| >= 2 && scores[0].Some? && scores[|scores| - 1].Some? then
      Some(scores[|scores| - 1].value - scores[0].value)
    else None
  }

  /** `calculate_trend_direction`: up or down when the last score differs
      from the first by more than 5, stable otherwise. A NaN at either end
      fails both comparisons and so reads as stable. */
  function TrendDirection(scores: seq<Option<int>>): (d: Direction)
    ensures |scores| < 2 ==> d == Stable
    ensures d == Up <==> Change(scores).Some? && Change(scores).value > 5
    ensures d == Down <==> Change(scores).Some? && Change(scores).value < -5
  {
    if |scores| < 2 then Stable
    else if scores[0].None? || scores[|scores| - 1].None? then Stable
    else
      var change := scores[|scores| - 1].value - scores[0].value;
      if change > 5 then Up
      else if change < -5 then Down
      else Stable
  }

  /** Reading the scores backwards swaps up and down and keeps stable. */
  lemma ReversedDirection(scores: seq<Option<int>>)
    ensures TrendDirection(Reverse(scores)) ==
            match TrendDirection(scores)
            case Up => Down
            case Down => Up
            case Stable => Stable
  {
  }

  /** Raising every score by the same amount changes no direction. */
  lemma ShiftedDirection(scores: seq<Option<int>>, c: int)
    ensures TrendDirection(seq(|scores|, i requires 0 <= i < |scores| =>
              if scores[i].Some? then Some(scores[i].value + c) else None)) == TrendDirection(scores)
  {
  }

  /** The threshold: a change of exactly 5 either way is still stable. */
  lemma DirectionExamples()
    ensures TrendDirection([Some(10), Some(20)]) == Up
    ensures TrendDirection([Some(20), Some(10)]) == Down
    ensures TrendDirection([Some(20), Some(23)]) == Stable
    ensures TrendDirection([Some(20), Some(25)]) == Stable
    ensures TrendDirection([Some(20), Some(15)]) == Stable
    ensures TrendDirection([Some(20), None, Some(90)]) == Up
    ensures TrendDirection([None, Some(90)]) == Stable
  {
  }

  // ---------------------------------------------------------------------
  // /keywords: grouping by category
  // ---------------------------------------------------------------------

  /** One entry of `by_category`: a category and its keywords, in order of
      first appearance (see CategoryOrder and KeywordOrder). */
  datatype Group = Group(category: string, keywords: seq<string>)

  /** `t.get('category', 'Other')`. */
  function CategoryOf(t: TrendRecord): string {
    t.category.GetOr("Other")
  }

  /** No category is listed twice. */
  predicate DistinctCategories(groups: seq<Group>) {
    forall i, j :: 0 <= i < j < |groups| ==> groups[i].category != groups[j].category
  }

  /** The well-formedness the grouping keeps: distinct categories, and in
      each category distinct keywords and at least one. */
  predicate GroupsValid(groups: seq<Group>) {
    DistinctCategories(groups) &&
    forall i :: 0 <= i < |groups| ==> |groups[i].keywords| > 0 && Distinct(groups[i].keywords)
  }

  /** `category` is one of the groups. */
  predicate HasCategory(groups: seq<Group>, category: string) {
    exists i :: 0 <= i < |groups| && groups[i].category == category
  }

  /** `keyword` is listed under `category`. */
  predicate Files(groups: seq<Group>, category: string, keyword: string) {
    exists i :: 0 <= i < |groups| && groups[i].category == category && keyword in groups[i].keywords
  }

  lemma FilesCons(g: Group, gs: seq<Group>)
    ensures forall c, k :: Files([g] + gs, c, k) <==> (g.category == c && k in g.keywords) || Files(gs, c, k)
    ensures forall c :: HasCategory([g] + gs, c) <==> g.category == c || HasCategory(gs, c)
  {
    var r := [g] + gs;
    assert forall i :: 1 <= i < |r| ==> r[i] == gs[i - 1];
    forall c, k
      ensures Files(r, c, k) <==> (g.category == c && k in g.keywords) || Files(gs, c, k)
    {
      if Files(gs, c, k) {
        var i :| 0 <= i < |gs| && gs[i].category == c && k in gs[i].keywords;
        assert r[i + 1] == gs[i];
      }
      if g.category == c && k in g.keywords {
        assert r[0] == g;
      }
      if Files(r, c, k) {
        var i :| 0 <= i < |r| && r[i].category == c && k in r[i].keywords;
        if i > 0 {
          assert gs[i - 1] == r[i];
        }
      }
    }
    forall c
      ensures HasCategory(r, c) <==> g.category == c || HasCategory(gs, c)
    {
      if HasCategory(gs, c) {
        var i :| 0 <= i < |gs| && gs[i].category == c;
        assert r[i + 1] == gs[i];
      }
      if g.category == c {
        assert r[0] == g;
      }
      if HasCategory(r, c) {
        var i :| 0 <= i < |r| && r[i].category == c;
        if i > 0 {
          assert gs[i - 1] == r[i];
        }
      }
    }
  }

  /** A listing headed by `g` is valid exactly when `g` is a proper group
      whose category the rest does not repeat, and the rest is valid. */
  lemma GroupsValidCons(g: Group, gs: seq<Group>)
    ensures GroupsValid([g] + gs) <==>
            |g.keywords| > 0 && Distinct(g.keywords) && !HasCategory(gs, g.category) && GroupsValid(gs)
  {
    var r := [g] + gs;
    assert r[0] == g;
    assert forall i :: 1 <= i < |r| ==> r[i] == gs[i - 1];
    if GroupsValid(r) {
      forall i | 0 <= i < |gs| ensures gs[i].category != g.category {
        assert r[i + 1] == gs[i];
      }
      forall i, j | 0 <= i < j < |gs| ensures gs[i].category != gs[j].category {
        assert r[i + 1] == gs[i] && r[j + 1] == gs[j];
      }
      forall i | 0 <= i < |gs| ensures |gs[i].keywords| > 0 && Distinct(gs[i].keywords) {
        assert r[i + 1] == gs[i];
      }
    }
  }

  /** A category's keyword list after `keyword` is filed under it: appended
      unless already listed. */
  function WithKeyword(keywords: seq<string>, keyword: string): (r: seq<string>)
    requires Distinct(keywords)
    ensures Distinct(r) && |r| > 0
    ensures forall k :: k in r <==> k in keywords || k == keyword
  {
    if keyword in keywords then keywords
    else
      DistinctSnoc(keywords, keyword);
      keywords + [keyword]
  }

  /** One step of the grouping loop: files `keyword` under `category`,
      creating the category at the end if it is new, and appending the
      keyword unless the category already lists it. */
  function AddToGroups(groups: seq<Group>, category: string, keyword: string): (r: seq<Group>)
    requires GroupsValid(groups)
    ensures GroupsValid(r)
    ensures forall c, k :: Files(r, c, k) <==> Files(groups, c, k) || (c == category && k == keyword)
    ensures forall c :: HasCategory(r, c) <==> HasCategory(groups, c) || c == category
    decreases |groups|
  {
    if |groups| == 0 then
      var g' := Group(category, [keyword]);
      FilesCons(g', []);
      GroupsValidCons(g', []);
      [g'] + []
    else
      var g := groups[0];
      var gs := groups[1..];
      assert groups == [g] + gs;
      FilesCons(g, gs);
      GroupsValidCons(g, gs);
      if g.category == category then
        var g' := Group(category, WithKeyword(g.keywords, keyword));
        FilesCons(g', gs);
        GroupsValidCons(g', gs);
        [g'] + gs
      else
        var rest := AddToGroups(gs, category, keyword);
        FilesCons(g, rest);
        GroupsValidCons(g, rest);
        [g] + rest
  }

  /** Some record of `data` has category `category` and keyword `keyword`. */
  predicate HasRecord(data: seq<TrendRecord>, category: string, keyword: string) {
    exists t :: t in data && CategoryOf(t) == category && t.keyword == keyword
  }

  /** The grouping loop of `get_keywords`, over the records in order: a
      keyword is listed under a category exactly when some record has both. */
  function GroupByCategory(data: seq<TrendRecord>): (r: seq<Group>)
    ensures GroupsValid(r)
    ensures forall c, k :: Files(r, c, k) <==> HasRecord(data, c, k)
    decreases |data|
  {
    if |data| == 0 then []
    else
      var init := data[..|data| - 1];
      var t := data[|data| - 1];
      var groups := GroupByCategory(init);
      var r := AddToGroups(groups, CategoryOf(t), t.keyword);
      HasRecordAppend(init, t);
      assert data == init + [t];
      r
  }

  lemma HasRecordAppend(data: seq<TrendRecord>, t: TrendRecord)
    ensures forall c, k :: HasRecord(data + [t], c, k) <==> HasRecord(data, c, k) || (c == CategoryOf(t) && k == t.keyword)
  {
    assert forall u :: u in data + [t] <==> u in data || u == t;
  }

  /** The categories of a listing, in order. */
  function CategoryNames(groups: seq<Group>): (r: seq<string>)
    ensures |r| == |groups|
    ensures forall c :: c in r <==> HasCategory(groups, c)
  {
    var r := seq(|groups|, i requires 0 <= i < |groups| => groups[i].category);
    assert forall i :: 0 <= i < |groups| ==> r[i] == groups[i].category;
    r
  }

  /** The keywords a listing files under `category`, none when it has no
      such group. */
  function KeywordsUnder(groups: seq<Group>, category: string): seq<string>
    decreases |groups|
  {
    if |groups| == 0 then []
    else if groups[0].category == category then groups[0].keywords
    else KeywordsUnder(groups[1..], category)
  }

  /** The categories of the records, in cache order. */
  function RecordCategories(data: seq<TrendRecord>): seq<string> {
    seq(|data|, i requires 0 <= i < |data| => CategoryOf(data[i]))
  }

  /** The keywords of the records with category `category`, in cache order. */
  function RecordKeywordsIn(data: seq<TrendRecord>, category: string): seq<string>
    decreases |data|
  {
    if |data| == 0 then []
    else
      var t := data[|data| - 1];
      RecordKeywordsIn(data[..|data| - 1], category) + (if CategoryOf(t) == category then [t.keyword] else [])
  }

  lemma CategoryNamesCons(g: Group, gs: seq<Group>)
    ensures CategoryNames([g] + gs) == [g.category] + CategoryNames(gs)
  {
    var r := [g] + gs;
    assert forall i :: 1 <= i < |r| ==> r[i] == gs[i - 1];
  }

  lemma KeywordsUnderCons(g: Group, gs: seq<Group>, c: string)
    ensures KeywordsUnder([g] + gs, c) == if g.category == c then g.keywords else KeywordsUnder(gs, c)
  {
    assert ([g] + gs)[0] == g;
    assert ([g] + gs)[1..] == gs;
  }

  /** One step of the grouping loop adds a new category after all the
      others and leaves the order of the categories already listed alone. */
  lemma {:induction false} AddToGroupsCategories(groups: seq<Group>, category: string, keyword: string)
    requires GroupsValid(groups)
    ensures CategoryNames(AddToGroups(groups, category, keyword)) ==
            if category in CategoryNames(groups) then CategoryNames(groups) else CategoryNames(groups) + [category]
    decreases |groups|
  {
    var r := AddToGroups(groups, category, keyword);
    if |groups| == 0 {
      CategoryNamesCons(Group(category, [keyword]), []);
      assert r == [Group(category, [keyword])] + [];
    } else {
      var g := groups[0];
      var gs := groups[1..];
      assert groups == [g] + gs;
      GroupsValidCons(g, gs);
      CategoryNamesCons(g, gs);
      if g.category == category {
        var g' := Group(category, WithKeyword(g.keywords, keyword));
        assert r == [g'] + gs;
        CategoryNamesCons(g', gs);
      } else {
        var rest := AddToGroups(gs, category, keyword);
        assert r == [g] + rest;
        AddToGroupsCategories(gs, category, keyword);
        CategoryNamesCons(g, rest);
      }
    }
  }

  /** One step of the grouping loop adds a new keyword of `category` after
      all the others listed under it, and moves no other keyword. */
  lemma {:induction false} AddToGroupsKeywords(groups: seq<Group>, category: string, keyword: string, c: string)
    requires GroupsValid(groups)
    ensures KeywordsUnder(AddToGroups(groups, category, keyword), c) ==
            if c != category then KeywordsUnder(groups, c)
            else if keyword in KeywordsUnder(groups, c) then KeywordsUnder(groups, c)
            else KeywordsUnder(groups, c) + [keyword]
    decreases |groups|
  {
    var r := AddToGroups(groups, category, keyword);
    if |groups| == 0 {
      KeywordsUnderCons(Group(category, [keyword]), [], c);
      assert r == [Group(category, [keyword])] + [];
    } else {
      var g := groups[0];
      var gs := groups[1..];
      assert groups == [g] + gs;
      GroupsValidCons(g, gs);
      KeywordsUnderCons(g, gs, c);
      if g.category == category {
        var g' := Group(category, WithKeyword(g.keywords, keyword));
        assert r == [g'] + gs;
        KeywordsUnderCons(g', gs, c);
      } else {
        var rest := AddToGroups(gs, category, keyword);
        assert r == [g] + rest;
        AddToGroupsKeywords(gs, category, keyword, c);
        KeywordsUnderCons(g, rest, c);
      }
    }
  }

  /** `/keywords` lists the categories in the order of their first record. */
  lemma {:induction false} CategoryOrder(data: seq<TrendRecord>)
    ensures CategoryNames(GroupByCategory(data)) == FirstSeen(RecordCategories(data))
    decreases |data|
  {
    if |data| > 0 {
      var init := data[..|data| - 1];
      var t := data[|data| - 1];
      var groups := GroupByCategory(init);
      CategoryOrder(init);
      AddToGroupsCategories(groups, CategoryOf(t), t.keyword);
      assert GroupByCategory(data) == AddToGroups(groups, CategoryOf(t), t.keyword);
      var cats := RecordCategories(data);
      assert cats[..|cats| - 1] == RecordCategories(init);
      assert cats[|cats| - 1] == CategoryOf(t);
    }
  }

  /** `/keywords` lists the keywords of category `c` in the order of their
      first record with that category. */
  lemma {:induction false} KeywordOrder(data: seq<TrendRecord>, c: string)
    ensures KeywordsUnder(GroupByCategory(data), c) == FirstSeen(RecordKeywordsIn(data, c))
    decreases |data|
  {
    if |data| > 0 {
      var init := data[..|data| - 1];
      var t := data[|data| - 1];
      var groups := GroupByCategory(init);
      KeywordOrder(init, c);
      AddToGroupsKeywords(groups, CategoryOf(t), t.keyword, c);
      assert GroupByCategory(data) == AddToGroups(groups, CategoryOf(t), t.keyword);
      var ks := RecordKeywordsIn(data, c);
      assert ks == RecordKeywordsIn(init, c) + (if CategoryOf(t) == c then [t.keyword] else []);
      if CategoryOf(t) == c {
        assert ks[..|ks| - 1] == RecordKeywordsIn(init, c);
        assert ks[|ks| - 1] == t.keyword;
        assert FirstSeen(ks) ==
               if t.keyword in FirstSeen(RecordKeywordsIn(init, c)) then FirstSeen(RecordKeywordsIn(init, c))
               else FirstSeen(RecordKeywordsIn(init, c)) + [t.keyword];
      } else {
        assert ks == RecordKeywordsIn(init, c);
      }
    }
  }

  /** `/keywords` lists a keyword under a category exactly when one of the
      keyword's records has that category. */
  lemma ListedIffRecord(data: seq<TrendRecord>, c: string, k: string)
    ensures Files(GetKeywords(data).byCategory, c, k) <==> exists t :: t in RecordsFor(data, k) && CategoryOf(t) == c
  {
    if HasRecord(data, c, k) {
      var t :| t in data && CategoryOf(t) == c && t.keyword == k;
      assert t in RecordsFor(data, k);
    }
  }

  /** Every record is listed under its category, a record without one under
      "Other". */
  lemma RecordFiled(data: seq<TrendRecord>, t: TrendRecord)
    requires t in data
    ensures Files(GroupByCategory(data), CategoryOf(t), t.keyword)
    ensures t.category.None? ==> Files(GroupByCategory(data), "Other", t.keyword)
  {
    assert HasRecord(data, CategoryOf(t), t.keyword);
  }

  /** The body of `/keywords`. */
  datatype KeywordsResponse = KeywordsResponse(keywords: seq<string>, count: nat, byCategory: seq<Group>)

  /** `get_keywords`: the sorted unique keywords, their number, and the
      keywords grouped by category. */
  function GetKeywords(data: seq<TrendRecord>): (r: KeywordsResponse)
    ensures r.count == |r.keywords| == |KeywordsIn(data)|
    ensures StrictlySorted(r.keywords) && Elements(r.keywords) == KeywordsIn(data)
    ensures GroupsValid(r.byCategory)
    ensures forall c, k :: Files(r.byCategory, c, k) <==> HasRecord(data, c, k)
  {
    var keywords := UniqueKeywords(data);
    KeywordsResponse(keywords, |keywords|, GroupByCategory(data))
  }

  /** Every keyword listed under a category is one of the unique keywords. */
  lemma GroupedKeywordsAreKeywords(data: seq<TrendRecord>, c: string, k: string)
    requires Files(GetKeywords(data).byCategory, c, k)
    ensures k in GetKeywords(data).keywords
  {
    var t :| t in data && CategoryOf(t) == c && t.keyword == k;
    assert k in KeywordsIn(data);
  }

  // ---------------------------------------------------------------------
  // /trends: lookup by keyword
  // ---------------------------------------------------------------------

  /** `get_eco_score`: the placeholder that has no score for any keyword. */
  function GetEcoScore(keyword: string): Option<int> {
    None
  }

  /** An error raised as an HTTP response. */
  datatype HttpError = HttpError(status: int, detail: string)

  /** A record returned by `/trends`: the cached record with every field
      kept, plus `eco_score` and `brand`. */
  datatype EnrichedRecord = EnrichedRecord(record: TrendRecord, ecoScore: Option<int>, brand: string)

  /** `brand if brand else "Generic"`: an absent or empty brand reads "Generic". */
  function BrandLabel(brand: Option<string>): (b: string)
    ensures b != ""
    ensures brand.Some? && brand.value != "" ==> b == brand.value
    ensures brand.None? || brand == Some("") ==> b == "Generic"
  {
    if brand.Some? && brand.value != "" then brand.value else "Generic"
  }

  /** The record's keyword equals the query, ignoring letter case. */
  predicate MatchesQuery(t: TrendRecord, keyword: string) {
    Text.Lower(t.keyword) == Text.Lower(keyword)
  }

  /** `[t for t in trends_data if t['keyword'].lower() == keyword.lower()]`. */
  function FilterByQuery(data: seq<TrendRecord>, keyword: string): (r: seq<TrendRecord>)
    ensures forall t :: t in r ==> t in data && MatchesQuery(t, keyword)
    ensures forall t :: t in data && MatchesQuery(t, keyword) ==> t in r
    ensures IsSubsequence(r, data)
    decreases |data|
  {
    if |data| == 0 then []
    else
      var rest := FilterByQuery(data[1..], keyword);
      assert data == [data[0]] + data[1..];
      if MatchesQuery(data[0], keyword) then
        ConsSubsequence(data[0], rest, data[1..]);
        [data[0]] + rest
      else
        SkipSubsequence(data[0], rest, data[1..]);
        rest
  }

  /** Filtering distributes over concatenation: every matching record is kept,
      as often as it occurs and in its place. */
  lemma {:induction false} FilterByQueryAppend(a: seq<TrendRecord>, b: seq<TrendRecord>, keyword: string)
    ensures FilterByQuery(a + b, keyword) == FilterByQuery(a, keyword) + FilterByQuery(b, keyword)
    decreases |a|
  {
    if |a| > 0 {
      assert (a + b)[1..] == a[1..] + b;
      assert (a + b)[0] == a[0];
      FilterByQueryAppend(a[1..], b, keyword);
    } else {
      assert a + b == b;
    }
  }

  /** A matching record occurs in the filtered list exactly as often as in the
      cache; any other record not at all. */
  lemma {:induction false} FilterByQueryCounts(data: seq<TrendRecord>, keyword: string, t: TrendRecord)
    ensures multiset(FilterByQuery(data, keyword))[t] == if MatchesQuery(t, keyword) then multiset(data)[t] else 0
    decreases |data|
  {
    if |data| > 0 {
      FilterByQueryCounts(data[1..], keyword, t);
      assert data == [data[0]] + data[1..];
      assert multiset(data) == multiset{data[0]} + multiset(data[1..]);
    }
  }

  /** The response to a request whose handler raised: Starlette renders the
      result with `allow_nan=False`, so a NaN score cannot be sent. */
  const ServerError := HttpError(500, "Internal Server Error")

  /** `get_trends`: the matching records enriched with the (absent) eco-score
      and the brand label; a 404 when no record matches, and a server error
      when a matching record's score is NaN and so cannot be rendered. */
  function GetTrends(data: seq<TrendRecord>, keyword: string, brand: Option<string>): (r: Result<seq<EnrichedRecord>, HttpError>)
    ensures (forall t :: t in data ==> !MatchesQuery(t, keyword)) ==>
              r == Failure(HttpError(404, "No trend data found for keyword: " + keyword))
    ensures (exists t :: t in data && MatchesQuery(t, keyword) && t.trendScore.None?) ==> r == Failure(ServerError)
    ensures r.Failure? ==>
              (forall t :: t in data ==> !MatchesQuery(t, keyword)) ||
              (exists t :: t in data && MatchesQuery(t, keyword) && t.trendScore.None?)
    ensures r.Success? ==>
              var filtered := FilterByQuery(data, keyword);
              && |r.value| == |filtered| > 0
              && forall i :: 0 <= i < |r.value| ==>
                   && r.value[i].record == filtered[i] && r.value[i].record.trendScore.Some?
                   && r.value[i].ecoScore.None? && r.value[i].brand == BrandLabel(brand)
  {
    var filtered := FilterByQuery(data, keyword);
    if |filtered| == 0 then
      Failure(HttpError(404, "No trend data found for keyword: " + keyword))
    else if exists t :: t in filtered && t.trendScore.None? then
      Failure(ServerError)
    else
      assert filtered[0] in filtered;
      var ecoScore := GetEcoScore(keyword);
      Success(seq(|filtered|, i requires 0 <= i < |filtered| => EnrichedRecord(filtered[i], ecoScore, BrandLabel(brand))))
  }

  /** On success the response holds every matching cached record as often as
      the cache does, and no other record. */
  lemma GetTrendsCounts(data: seq<TrendRecord>, keyword: string, brand: Option<string>, t: TrendRecord)
    ensures GetTrends(data, keyword, brand).Success? ==>
              var v := GetTrends(data, keyword, brand).value;
              multiset(seq(|v|, i requires 0 <= i < |v| => v[i].record))[t] ==
                if MatchesQuery(t, keyword) then multiset(data)[t] else 0
  {
    var r := GetTrends(data, keyword, brand);
    if r.Success? {
      var v := r.value;
      assert seq(|v|, i requires 0 <= i < |v| => v[i].record) == FilterByQuery(data, keyword);
      FilterByQueryCounts(data, keyword, t);
    }
  }

  /** The lookup ignores the letter case of the query. */
  lemma QueryCaseIgnored(data: seq<TrendRecord>, keyword: string, brand: Option<string>)
    ensures GetTrends(data, Text.Lower(keyword), brand).Success? == GetTrends(data, keyword, brand).Success?
    ensures GetTrends(data, keyword, brand).Success? ==>
              GetTrends(data, Text.Lower(keyword), brand).value == GetTrends(data, keyword, brand).value
  {
    Text.LowerIdempotent(keyword);
    assert forall t :: MatchesQuery(t, Text.Lower(keyword)) == MatchesQuery(t, keyword);
    FilterSameQuery(data, keyword, Text.Lower(keyword));
  }

  lemma {:induction false} FilterSameQuery(data: seq<TrendRecord>, k1: string, k2: string)
    requires Text.Lower(k1) == Text.Lower(k2)
    ensures FilterByQuery(data, k1) == FilterByQuery(data, k2)
    decreases |data|
  {
    if |data| > 0 {
      FilterSameQuery(data[1..], k1, k2);
    }
  }

  // ---------------------------------------------------------------------
  // /trends/summary
  // ---------------------------------------------------------------------

  /** The placeholder brands every keyword is summarised for. */
  const Brands: seq<string> := ["Patagonia", "Everlane", "Reformation"]

  /** `get_eco_score(keyword)`, defaulting to the middle value 5. */
  function EcoScoreOrDefault(keyword: string): (e: int)
    ensures GetEcoScore(keyword).None? ==> e == 5
  {
    GetEcoScore(keyword).GetOr(5)
  }

  /** The per-brand entry of the summary, without the float average. */
  datatype BrandSummary = BrandSummary(currentTrend: int, averageEco: int, currentEco: int, direction: Direction, dataPoints: nat)

  /** The summary of one keyword: one entry per placeholder brand. */
  datatype KeywordSummary = KeywordSummary(keyword: string, brands: seq<(string, BrandSummary)>)

  /** `int(nan)` raises: the latest score of a keyword is not a number. */
  datatype SummaryError = CurrentTrendNotNumeric(keyword: string)

  /** The scores of a keyword's records, in order. */
  function ScoresOf(records: seq<TrendRecord>): (r: seq<Option<int>>)
    ensures |r| == |records|
    ensures forall i :: 0 <= i < |records| ==> r[i] == records[i].trendScore
  {
    seq(|records|, i requires 0 <= i < |records| => records[i].trendScore)
  }

  /** The latest record of a keyword has a numeric score. */
  predicate LatestScoreNumeric(records: seq<TrendRecord>) {
    |records| > 0 ==> records[|records| - 1].trendScore.Some?
  }

  /** The loop body of `get_trends_summary` for one keyword. */
  function SummariseKeyword(data: seq<TrendRecord>, keyword: string): (r: Result<KeywordSummary, SummaryError>)
    ensures r.Failure? <==> !LatestScoreNumeric(RecordsFor(data, keyword))
    ensures r.Failure? ==> r.error == CurrentTrendNotNumeric(keyword)
    ensures r.Success? ==>
              var records := RecordsFor(data, keyword);
              && r.value.keyword == keyword
              && (|records| == 0 ==> r.value.brands == [])
              && (|records| > 0 ==>
                   && |r.value.brands| == |Brands|
                   && (forall i :: 0 <= i < |Brands| ==> r.value.brands[i].0 == Brands[i])
                   && (forall i :: 0 <= i < |Brands| ==> r.value.brands[i].1 == r.value.brands[0].1)
                   && var s := r.value.brands[0].1;
                      && s.dataPoints == |records|
                      && s.currentTrend == records[|records| - 1].trendScore.value
                      && s.averageEco == s.currentEco == 5
                      && s.direction == TrendDirection(ScoresOf(records)))
  {
    var records := RecordsFor(data, keyword);
    if |records| == 0 then Success(KeywordSummary(keyword, []))
    else
      var eco := EcoScoreOrDefault(keyword);
      var last := records[|records| - 1].trendScore;
      if last.None? then Failure(CurrentTrendNotNumeric(keyword))
      else
        var s := BrandSummary(last.value, eco, eco, TrendDirection(ScoresOf(records)), |records|);
        Success(KeywordSummary(keyword, seq(|Brands|, i requires 0 <= i < |Brands| => (Brands[i], s))))
  }

  /** The loop of `get_trends_summary` over a list of keywords: stops at the
      first keyword whose latest score is not numeric. */
  function SummariseAll(data: seq<TrendRecord>, keywords: seq<string>): (r: Result<seq<KeywordSummary>, SummaryError>)
    ensures r.Failure? <==> exists i :: 0 <= i < |keywords| && SummariseKeyword(data, keywords[i]).Failure?
    ensures r.Success? ==>
              && |r.value| == |keywords|
              && forall i :: 0 <= i < |keywords| ==> r.value[i] == SummariseKeyword(data, keywords[i]).value
    decreases |keywords|
  {
    if |keywords| == 0 then Success([])
    else
      match SummariseKeyword(data, keywords[0])
      case Failure(e) => Failure(e)
      case Success(s) =>
        assert forall i :: 1 <= i < |keywords| ==> keywords[1..][i - 1] == keywords[i];
        match SummariseAll(data, keywords[1..])
        case Failure(e) => Failure(e)
        case Success(rest) => Success([s] + rest)
  }

  /** `get_trends_summary`: one summary per unique keyword, in sorted order;
      it fails when some keyword's latest score is not numeric. */
  function GetTrendsSummary(data: seq<TrendRecord>): (r: Result<seq<KeywordSummary>, SummaryError>)
    ensures r.Failure? <==> exists k :: k in KeywordsIn(data) && !LatestScoreNumeric(RecordsFor(data, k))
    ensures r.Success? ==>
              && |r.value| == |KeywordsIn(data)|
              && forall i :: 0 <= i < |r.value| ==>
                   && r.value[i].keyword == UniqueKeywords(data)[i]
                   && |r.value[i].brands| == |Brands|
                   && r.value[i].brands[0].1.dataPoints == |RecordsFor(data, r.value[i].keyword)|
  {
    SummaryFacts(data);
    SummariseAll(data, UniqueKeywords(data))
  }

  lemma SummaryFacts(data: seq<TrendRecord>)
    ensures var keywords := UniqueKeywords(data);
            var r := SummariseAll(data, keywords);
            && (r.Failure? <==> exists k :: k in KeywordsIn(data) && !LatestScoreNumeric(RecordsFor(data, k)))
            && (r.Success? ==>
                 && |r.value| == |KeywordsIn(data)|
                 && forall i :: 0 <= i < |r.value| ==>
                      && r.value[i].keyword == keywords[i]
                      && |r.value[i].brands| == |Brands|
                      && r.value[i].brands[0].1.dataPoints == |RecordsFor(data, r.value[i].keyword)|)
  {
    var keywords := UniqueKeywords(data);
    SummaryFailure(data, keywords);
    SummaryShape(data, keywords);
  }

  lemma SummaryFailure(data: seq<TrendRecord>, keywords: seq<string>)
    requires Elements(keywords) == KeywordsIn(data)
    ensures SummariseAll(data, keywords).Failure? <==>
            exists k :: k in KeywordsIn(data) && !LatestScoreNumeric(RecordsFor(data, k))
  {
    if exists k :: k in KeywordsIn(data) && !LatestScoreNumeric(RecordsFor(data, k)) {
      var k :| k in KeywordsIn(data) && !LatestScoreNumeric(RecordsFor(data, k));
      assert k in Elements(keywords);
      var i :| 0 <= i < |keywords| && keywords[i] == k;
      assert SummariseKeyword(data, keywords[i]).Failure?;
    }
    if SummariseAll(data, keywords).Failure? {
      var i :| 0 <= i < |keywords| && SummariseKeyword(data, keywords[i]).Failure?;
      assert keywords[i] in Elements(keywords);
    }
  }

  lemma SummaryShape(data: seq<TrendRecord>, keywords: seq<string>)
    requires Elements(keywords) == KeywordsIn(data)
    ensures var r := SummariseAll(data, keywords);
            r.Success? ==>
              && |r.value| == |keywords|
              && forall i :: 0 <= i < |r.value| ==>
                   && r.value[i].keyword == keywords[i]
                   && |r.value[i].brands| == |Brands|
                   && r.value[i].brands[0].1.dataPoints == |RecordsFor(data, r.value[i].keyword)|
  {
    SummaryNonEmpty(data, keywords);
    var r := SummariseAll(data, keywords);
    if r.Success? {
      forall i | 0 <= i < |r.value|
        ensures r.value[i].keyword == keywords[i]
        ensures |r.value[i].brands| == |Brands|
        ensures r.value[i].brands[0].1.dataPoints == |RecordsFor(data, r.value[i].keyword)|
      {
        var s := SummariseKeyword(data, keywords[i]);
        assert s.Success?;
        assert r.value[i] == s.value;
      }
    }
  }

  /** Each keyword of the data has at least one record. */
  lemma SummaryNonEmpty(data: seq<TrendRecord>, keywords: seq<string>)
    requires Elements(keywords) == KeywordsIn(data)
    ensures forall i :: 0 <= i < |keywords| ==> |RecordsFor(data, keywords[i])| > 0
  {
    forall i | 0 <= i < |keywords|
      ensures |RecordsFor(data, keywords[i])| > 0
    {
      assert keywords[i] in KeywordsIn(data);
      var t :| t in data && t.keyword == keywords[i];
      assert t in RecordsFor(data, keywords[i]);
    }
  }

  // ---------------------------------------------------------------------
  // Partition of the records by keyword
  // ---------------------------------------------------------------------

  /** The total number of records of the keywords `ks`. */
  function CountSum(data: seq<TrendRecord>, ks: seq<string>): nat
    decreases |ks|
  {
    if |ks| == 0 then 0 else |RecordsFor(data, ks[0])| + CountSum(data, ks[1..])
  }

  lemma {:induction false} CountSumEmpty(ks: seq<string>)
    ensures CountSum([], ks) == 0
    decreases |ks|
  {
    if |ks| > 0 {
      CountSumEmpty(ks[1..]);
    }
  }

  lemma {:induction false} CountSumAppend(data: seq<TrendRecord>, t: TrendRecord, ks: seq<string>)
    requires Distinct(ks)
    ensures CountSum(data + [t], ks) == CountSum(data, ks) + (if t.keyword in ks then 1 else 0)
    decreases |ks|
  {
    if |ks| > 0 {
      RecordsForAppend(data, [t], ks[0]);
      assert RecordsFor([t], ks[0]) == if t.keyword == ks[0] then [t] else [];
      assert Distinct(ks[1..]);
      CountSumAppend(data, t, ks[1..]);
      assert t.keyword in ks <==> t.keyword == ks[0] || t.keyword in ks[1..];
      assert t.keyword == ks[0] ==> t.keyword !in ks[1..];
    }
  }

  /** Counting the records of each of a duplicate-free list of keywords
      that covers every record counts every record exactly once. */
  lemma {:induction false} CountSumCovers(data: seq<TrendRecord>, ks: seq<string>)
    requires Distinct(ks)
    requires forall t :: t in data ==> t.keyword in ks
    ensures CountSum(data, ks) == |data|
    decreases |data|
  {
    if |data| == 0 {
      CountSumEmpty(ks);
    } else {
      var init := data[..|data| - 1];
      var t := data[|data| - 1];
      assert data == init + [t];
      CountSumCovers(init, ks);
      CountSumAppend(init, t, ks);
    }
  }

  /** Every record is counted under exactly one unique keyword: the record
      counts of the summary's keywords add up to the size of the cache. */
  lemma KeywordRecordsPartition(data: seq<TrendRecord>)
    ensures CountSum(data, UniqueKeywords(data)) == |data|
  {
    var ks := UniqueKeywords(data);
    StrictlySortedDistinct(ks);
    assert forall t :: t in data ==> t.keyword in Elements(ks);
    CountSumCovers(data, ks);
  }
}

=== FILE: batching.dfy ===
/** `batch_keywords` of data_import.py: a generator of consecutive slices
    `lst[i:i + n]` for `i` in `range(0, len(lst), n)`. */
module Batching {
  import opened Wrappers
  import opened Seqs

  /** `range` refuses a step of zero. */
  datatype BatchError = ZeroStep

  function Min(a: int, b: int): int {
    if a <= b then a else b
  }

  /** From `q * n >= len > (q - 1) * n` follows `q == ceil(len / n)`. */
  lemma CeilDiv(q: nat, n: nat, len: nat)
    requires n > 0
    requires q * n >= len && (q - 1) * n < len
    ensures q == (len + n - 1) / n
  {
    var d := (len + n - 1) / n;
    var m := (len + n - 1) % n;
    assert len + n - 1 == d * n + m && 0 <= m < n;
    assert (q - d + 1) * n == q * n - d * n + n;
    assert (q - d + 1) * n > 0;
    MulPositive(q - d + 1, n);
    assert (d + 1 - q) * n == d * n + n - q * n;
    assert (d + 1 - q) * n > 0;
    MulPositive(d + 1 - q, n);
  }

  /** The batch count when the range stops: `q` steps of `n` first reach
      `len` or beyond at `i`. */
  lemma BatchCount(q: nat, n: int, i: int, len: nat)
    requires n > 0 && i == q * n && len <= i < len + n
    ensures q == (len + n - 1) / n
  {
    assert (q - 1) * n == q * n - n;
    CeilDiv(q, n, len);
  }

  lemma MulPositive(a: int, n: int)
    requires n > 0 && a * n > 0
    ensures a > 0
  {
  }

  /** After drawing the batches that start below `i`: they are consecutive
      slices of `lst` of `n` elements each, except that the last may be cut
      short by the end of `lst`. */
  ghost predicate Drawn<T>(lst: seq<T>, batches: seq<seq<T>>, i: int, n: int) {
    && n > 0
    && 0 <= i < |lst| + n
    && i == |batches| * n
    && Flatten(batches) == lst[..Min(i, |lst|)]
    && (forall k :: 0 <= k < |batches| ==> 0 < |batches[k]| <= n)
    && (forall k :: 0 <= k < |batches| - 1 ==> |batches[k]| == n)
    && (i <= |lst| ==> forall k :: 0 <= k < |batches| ==> |batches[k]| == n)
  }

  /** One step of the generator: `yield lst[i:i + n]`. */
  lemma DrawStep<T>(lst: seq<T>, batches: seq<seq<T>>, i: int, n: int)
    requires Drawn(lst, batches, i, n) && i < |lst|
    ensures Drawn(lst, batches + [lst[i..Min(i + n, |lst|)]], i + n, n)
  {
    var batch := lst[i..Min(i + n, |lst|)];
    assert (|batches| + 1) * n == |batches| * n + n;
    FlattenAppend(batches, [batch]);
    assert Flatten([batch]) == batch;
    assert lst[..Min(i + n, |lst|)] == lst[..i] + batch;
  }

  /** When the range is exhausted every element has been drawn, in
      ceil(len / n) batches. */
  lemma DrawDone<T>(lst: seq<T>, batches: seq<seq<T>>, i: int, n: int)
    requires Drawn(lst, batches, i, n) && i >= |lst|
    ensures Flatten(batches) == lst
    ensures |batches| == (|lst| + n - 1) / n
  {
    assert Min(i, |lst|) == |lst|;
    assert lst[..|lst|] == lst;
    BatchCount(|batches|, n, i, |lst|);
  }

  /** The batches, all drawn; a step of zero raises, a negative step yields
      nothing. */
  method BatchKeywords<T>(lst: seq<T>, n: int) returns (r: Result<seq<seq<T>>, BatchError>)
    ensures r.Failure? <==> n == 0
    ensures n < 0 ==> r == Success([])
    ensures n > 0 ==> r.Success? && Flatten(r.value) == lst
    ensures n > 0 ==> forall k :: 0 <= k < |r.value| ==> 0 < |r.value[k]| <= n
    ensures n > 0 ==> forall k :: 0 <= k < |r.value| - 1 ==> |r.value[k]| == n
    ensures n > 0 ==> |r.value| == (|lst| + n - 1) / n
  {
    if n == 0 {
      return Failure(ZeroStep);
    }
    if n < 0 {
      return Success([]);
    }
    var batches: seq<seq<T>> := [];
    var i := 0;
    while i < |lst|
      invariant Drawn(lst, batches, i, n)
      decreases |lst| - i
    {
      DrawStep(lst, batches, i, n);
      batches := batches + [lst[i..Min(i + n, |lst|)]];
      i := i + n;
    }
    DrawDone(lst, batches, i, n);
    return Success(batches);
  }
}

=== FILE: eco_table.dfy ===
/** The eco-score reference table of the Streamlit dashboard (app.py): its
    clean-up after loading and the two-tier keyword matcher. Columns carry an
    explicit text/number flag in place of pandas' dtype inspection. */
module EcoTable {
  import Text
  import opened Wrappers
  import opened Seqs

  /** One cell as pandas holds it: a string, a number, or NaN. */
  datatype Cell = Str(s: string) | Num(n: int) | Missing

  /** A column header and whether the column holds text (pandas dtype "object"). */
  datatype Column = Column(name: string, isText: bool)

  type Row = seq<Cell>

  datatype Table = Table(columns: seq<Column>, rows: seq<Row>)

  /** A data frame is rectangular: every row has one cell per column. */
  predicate WellFormed(t: Table) {
    forall i :: 0 <= i < |t.rows| ==> |t.rows[i]| == |t.columns|
  }

  /** Decimal digits of a natural number. */
  function Digits(n: nat): string
    decreases n
  {
    var d := ['0', '1', '2', '3', '4', '5', '6', '7', '8', '9'][n % 10];
    if n < 10 then [d] else Digits(n / 10) + [d]
  }

  /** `astype(str)` of one cell: NaN becomes "nan". */
  function CellText(c: Cell): string {
    match c
    case Str(s) => s
    case Num(n) => if n < 0 then "-" + Digits(-n) else Digits(n)
    case Missing => "nan"
  }

  // ---------------------------------------------------------------------
  // Clean-up after loading
  // ---------------------------------------------------------------------

  /** pandas' placeholder name for a column whose header cell is blank. */
  predicate IsUnnamed(name: string) {
    "Unnamed" <= name
  }

  /** Positions of the columns kept by the "^Unnamed" filter, in order. */
  function KeptColumns(cols: seq<Column>): (r: seq<nat>)
    ensures forall k :: 0 <= k < |r| ==> r[k] < |cols| && !IsUnnamed(cols[r[k]].name)
    ensures forall j :: 0 <= j < |cols| && !IsUnnamed(cols[j].name) ==> j in r
    ensures forall k, l :: 0 <= k < l < |r| ==> r[k] < r[l]
    decreases |cols|
  {
    if |cols| == 0 then []
    else
      var rest := KeptColumns(cols[..|cols| - 1]);
      var last := |cols| - 1;
      if IsUnnamed(cols[last].name) then rest else rest + [last]
  }

  /** `r` is the string `astype(str).str.strip()` makes of `c`: the text of
      `c` with its leading and trailing whitespace runs cut off. */
  ghost predicate StrippedText(c: Cell, r: Cell) {
    exists a, b :: Text.StripsTo(CellText(c), a, b) && r == Str(CellText(c)[a..b])
  }

  /** A text cell is turned into a string and stripped; other cells are kept. */
  function CleanCell(col: Column, c: Cell): (r: Cell)
    ensures col.isText ==> r.Str? && Text.IsTrimmed(r.s)
    ensures col.isText ==> StrippedText(c, r)
    ensures !col.isText ==> r == c
  {
    if col.isText then
      Text.StripTrims(CellText(c));
      Text.StripInfix(CellText(c));
      Str(Text.Strip(CellText(c)))
    else c
  }

  /** A column name, stripped. */
  function CleanName(name: string): (r: string)
    ensures Text.IsTrimmed(r)
    ensures exists a, b :: Text.StripsTo(name, a, b) && r == name[a..b]
  {
    Text.StripTrims(name);
    Text.StripInfix(name);
    Text.Strip(name)
  }

  /** The kept columns `kept` of a header, each with its name stripped. */
  function CleanColumns(cols: seq<Column>, kept: seq<nat>): (r: seq<Column>)
    requires forall k :: 0 <= k < |kept| ==> kept[k] < |cols|
    ensures |r| == |kept|
    ensures forall k :: 0 <= k < |kept| ==>
              && r[k].isText == cols[kept[k]].isText
              && Text.IsTrimmed(r[k].name)
              && exists a, b :: Text.StripsTo(cols[kept[k]].name, a, b) && r[k].name == cols[kept[k]].name[a..b]
  {
    seq(|kept|, k requires 0 <= k < |kept| => Column(CleanName(cols[kept[k]].name), cols[kept[k]].isText))
  }

  /** The kept cells `kept` of one row, those of text columns stripped. */
  function CleanRow(cols: seq<Column>, kept: seq<nat>, row: Row): (r: Row)
    requires |row| == |cols|
    requires forall k :: 0 <= k < |kept| ==> kept[k] < |cols|
    ensures |r| == |kept|
    ensures forall k :: 0 <= k < |kept| && !cols[kept[k]].isText ==> r[k] == row[kept[k]]
    ensures forall k :: 0 <= k < |kept| && cols[kept[k]].isText ==>
              r[k].Str? && Text.IsTrimmed(r[k].s) && StrippedText(row[kept[k]], r[k])
  {
    seq(|kept|, k requires 0 <= k < |kept| => CleanCell(cols[kept[k]], row[kept[k]]))
  }

  /** Every row of `t` cleaned, in order. */
  function CleanRows(t: Table, kept: seq<nat>): (r: seq<Row>)
    requires WellFormed(t)
    requires forall k :: 0 <= k < |kept| ==> kept[k] < |t.columns|
    ensures |r| == |t.rows|
    ensures forall i :: 0 <= i < |r| ==> |r[i]| == |kept|
    ensures forall i, k :: 0 <= i < |r| && 0 <= k < |kept| && !t.columns[kept[k]].isText ==> r[i][k] == t.rows[i][kept[k]]
    ensures forall i, k :: 0 <= i < |r| && 0 <= k < |kept| && t.columns[kept[k]].isText ==>
              r[i][k].Str? && Text.IsTrimmed(r[i][k].s) && StrippedText(t.rows[i][kept[k]], r[i][k])
  {
    var r := seq(|t.rows|, i requires 0 <= i < |t.rows| => CleanRow(t.columns, kept, t.rows[i]));
    assert forall i :: 0 <= i < |t.rows| ==> r[i] == CleanRow(t.columns, kept, t.rows[i]);
    r
  }

  /** The clean-up of `load_ecoscores` after the file is read: drops the
      "Unnamed" columns, strips the column names, and strips every cell of a
      text column. */
  function CleanTable(t: Table): (r: Table)
    requires WellFormed(t)
    ensures WellFormed(r) && |r.rows| == |t.rows|
    ensures forall k :: 0 <= k < |r.columns| ==> Text.IsTrimmed(r.columns[k].name)
    ensures forall i, k :: 0 <= i < |r.rows| && 0 <= k < |r.columns| && r.columns[k].isText ==>
              r.rows[i][k].Str? && Text.IsTrimmed(r.rows[i][k].s)
    ensures |r.columns| == |KeptColumns(t.columns)|
    ensures forall k :: 0 <= k < |r.columns| ==>
              var j := KeptColumns(t.columns)[k];
              && r.columns[k].isText == t.columns[j].isText
              && exists a, b :: Text.StripsTo(t.columns[j].name, a, b) && r.columns[k].name == t.columns[j].name[a..b]
    ensures forall i, k :: 0 <= i < |r.rows| && 0 <= k < |r.columns| && !r.columns[k].isText ==>
              r.rows[i][k] == t.rows[i][KeptColumns(t.columns)[k]]
    ensures forall i, k :: 0 <= i < |r.rows| && 0 <= k < |r.columns| && r.columns[k].isText ==>
              StrippedText(t.rows[i][KeptColumns(t.columns)[k]], r.rows[i][k])
  {
    var kept := KeptColumns(t.columns);
    var columns := CleanColumns(t.columns, kept);
    var rows := CleanRows(t, kept);
    Table(columns, rows)
  }

  /** What pandas raises at `df[c].dtype` when two kept columns end up with
      the same stripped name `c`: `df[c]` is then a frame, which has no dtype. */
  datatype LoadError = DuplicateColumn(name: string)

  function ColumnNames(cols: seq<Column>): seq<string> {
    seq(|cols|, k requires 0 <= k < |cols| => cols[k].name)
  }

  /** The first name, in column order, that occurs again later: the column
      at which the loop over `df.columns` raises. */
  function FirstDuplicate(names: seq<string>): (r: Option<string>)
    ensures r.None? <==> Distinct(names)
    ensures r.Some? ==> exists k, l :: 0 <= k < l < |names| && names[k] == r.value && names[l] == r.value
    decreases |names|
  {
    if |names| == 0 then None
    else if names[0] in names[1..] then
      var l :| 0 <= l < |names[1..]| && names[1..][l] == names[0];
      assert names[l + 1] == names[0];
      Some(names[0])
    else
      var r := FirstDuplicate(names[1..]);
      assert forall k :: 1 <= k < |names| ==> names[k] == names[1..][k - 1];
      r
  }

  /** `load_ecoscores` after the file is read: the clean-up, which raises when
      two kept columns have the same stripped name. */
  function LoadEcoScores(t: Table): (r: Result<Table, LoadError>)
    requires WellFormed(t)
    ensures r.Success? <==> Distinct(ColumnNames(CleanTable(t).columns))
    ensures r.Success? ==> r.value == CleanTable(t)
    ensures r.Failure? ==>
              var cols := CleanTable(t).columns;
              exists k, l :: 0 <= k < l < |cols| && cols[k].name == r.error.name && cols[l].name == r.error.name
  {
    var cleaned := CleanTable(t);
    match FirstDuplicate(ColumnNames(cleaned.columns))
    case None => Success(cleaned)
    case Some(name) => Failure(DuplicateColumn(name))
  }

  /** The "^Unnamed" filter looks at the name before it is stripped, so a
      header " Unnamed: 0" survives and comes out as "Unnamed: 0". */
  lemma PaddedUnnamedSurvives(t: Table)
    requires WellFormed(t)
    requires |t.columns| == 1 && t.columns[0].name == " Unnamed: 0"
    ensures var r := LoadEcoScores(t);
            r.Success? && |r.value.columns| == 1 && r.value.columns[0].name == "Unnamed: 0" && IsUnnamed(r.value.columns[0].name)
  {
    PaddedNameKept(t.columns);
    OneKeptColumn(t);
    StripPaddedUnnamed();
  }

  lemma PaddedNameKept(cols: seq<Column>)
    requires |cols| == 1 && cols[0].name == " Unnamed: 0"
    ensures KeptColumns(cols) == [0]
  {
    var name := " Unnamed: 0";
    assert name[0] == ' ';
    assert !IsUnnamed(name);
  }

  /** A table that keeps one column loads, with that column's name stripped. */
  lemma OneKeptColumn(t: Table)
    requires WellFormed(t)
    requires KeptColumns(t.columns) == [0]
    ensures var r := LoadEcoScores(t);
            r.Success? && r.value.columns == [Column(CleanName(t.columns[0].name), t.columns[0].isText)]
  {
    var cleaned := CleanTable(t);
    assert cleaned.columns == [Column(CleanName(t.columns[0].name), t.columns[0].isText)];
    assert ColumnNames(cleaned.columns) == [CleanName(t.columns[0].name)];
  }

  lemma StripPaddedUnnamed()
    ensures Text.Strip(" Unnamed: 0") == "Unnamed: 0"
    ensures CleanName(" Unnamed: 0") == "Unnamed: 0"
  {
    var name := " Unnamed: 0";
    assert name[0] == ' ' && name[1] == 'U' && name[|name| - 1] == '0';
    assert Text.LeadingEnd(name, 1) == 1;
    assert Text.LeadingEnd(name, 0) == 1;
    assert Text.TrailingStart(name, 1, |name|) == |name|;
    assert name[1..] == "Unnamed: 0";
  }

  // ---------------------------------------------------------------------
  // Matching
  // ---------------------------------------------------------------------

  /** The two tiers of the matcher, and the `match_type` tag of a result row. */
  datatype MatchType = Exact | Contains {
    function Label(): string {
      match this
      case Exact => "exact"
      case Contains => "contains"
    }
  }

  /** A result row: the table row unchanged, plus its `match_type`. */
  datatype TaggedRow = TaggedRow(row: Row, matchType: MatchType)

  /** Cell `j` of `row`, lower-cased, equals (`Exact`) or contains (`Contains`)
      the normalised keyword. */
  predicate CellHits(tier: MatchType, row: Row, j: nat, kw: string) {
    j < |row| &&
    var v := Text.Lower(CellText(row[j]));
    match tier
    case Exact => v == kw
    case Contains => Text.Contains(v, kw)
  }

  /** Some text column of `row` matches `kw` in the given tier. */
  predicate RowMatches(cols: seq<Column>, row: Row, tier: MatchType, kw: string) {
    exists j :: 0 <= j < |cols| && cols[j].isText && CellHits(tier, row, j, kw)
  }

  /** Reference definition of one tier: the rows with a matching text cell,
      in table order, each tagged with the tier. */
  function Matching(cols: seq<Column>, rows: seq<Row>, tier: MatchType, kw: string): (r: seq<TaggedRow>)
    ensures forall m :: m in r ==> m.matchType == tier && m.row in rows && RowMatches(cols, m.row, tier, kw)
    ensures forall i :: 0 <= i < |rows| && RowMatches(cols, rows[i], tier, kw) ==> TaggedRow(rows[i], tier) in r
    ensures |r| <= |rows|
    decreases |rows|
  {
    if |rows| == 0 then []
    else
      var rest := Matching(cols, rows[1..], tier, kw);
      assert forall i :: 0 < i < |rows| ==> rows[i] == rows[1..][i - 1];
      if RowMatches(cols, rows[0], tier, kw) then [TaggedRow(rows[0], tier)] + rest else rest
  }

  /** The rows of a result, without their tags. */
  function Untagged(ms: seq<TaggedRow>): (r: seq<Row>)
    ensures |r| == |ms|
    ensures forall i :: 0 <= i < |ms| ==> r[i] == ms[i].row
  {
    seq(|ms|, i requires 0 <= i < |ms| => ms[i].row)
  }

  /** Untagging distributes over a leading row. */
  lemma UntaggedCons(m: TaggedRow, ms: seq<TaggedRow>)
    ensures Untagged([m] + ms) == [m.row] + Untagged(ms)
  {
    var l := [m] + ms;
    assert forall i :: 1 <= i < |l| ==> l[i] == ms[i - 1];
  }

  /** A tier keeps the table's rows in their original order. */
  lemma {:induction false} MatchingSubsequence(cols: seq<Column>, rows: seq<Row>, tier: MatchType, kw: string)
    ensures IsSubsequence(Untagged(Matching(cols, rows, tier, kw)), rows)
    decreases |rows|
  {
    if |rows| > 0 {
      var tail := Matching(cols, rows[1..], tier, kw);
      MatchingSubsequence(cols, rows[1..], tier, kw);
      assert rows == [rows[0]] + rows[1..];
      if RowMatches(cols, rows[0], tier, kw) {
        UntaggedCons(TaggedRow(rows[0], tier), tail);
        ConsSubsequence(rows[0], Untagged(tail), rows[1..]);
      } else {
        SkipSubsequence(rows[0], Untagged(tail), rows[1..]);
      }
    }
  }

  /** `text_cols`: positions of the text columns, in order. */
  function TextColumns(cols: seq<Column>): (r: seq<nat>)
    ensures forall k :: 0 <= k < |r| ==> r[k] < |cols| && cols[r[k]].isText
    ensures forall j :: 0 <= j < |cols| && cols[j].isText ==> j in r
    decreases |cols|
  {
    if |cols| == 0 then []
    else
      var rest := TextColumns(cols[..|cols| - 1]);
      if cols[|cols| - 1].isText then rest + [|cols| - 1] else rest
  }

  /** The test of one tier on the cells of `row`, by column position. */
  function HitAt(tier: MatchType, row: Row, kw: string): nat -> bool {
    (j: nat) => CellHits(tier, row, j, kw)
  }

  /** One of the columns `tc` of `row` hits `kw` in the given tier. */
  predicate AnyHit(tier: MatchType, row: Row, tc: seq<nat>, kw: string) {
    Any(tc, HitAt(tier, row, kw))
  }

  /** Adding a column to the test adds that column's hits and nothing else. */
  lemma AnyHitSnoc(tier: MatchType, rows: seq<Row>, tc: seq<nat>, kw: string)
    requires |tc| > 0
    ensures forall i :: 0 <= i < |rows| ==>
              (AnyHit(tier, rows[i], tc, kw) <==>
               AnyHit(tier, rows[i], tc[..|tc| - 1], kw) || CellHits(tier, rows[i], tc[|tc| - 1], kw))
  {
    forall i | 0 <= i < |rows|
      ensures AnyHit(tier, rows[i], tc, kw) <==>
              AnyHit(tier, rows[i], tc[..|tc| - 1], kw) || CellHits(tier, rows[i], tc[|tc| - 1], kw)
    {
      AnySnoc(tc, HitAt(tier, rows[i], kw));
    }
  }

  /** The boolean mask built column by column, `mask = mask | test(column)`,
      over the text columns `tc`. */
  function TierMask(rows: seq<Row>, tc: seq<nat>, tier: MatchType, kw: string): (r: seq<bool>)
    ensures |r| == |rows|
    ensures forall i :: 0 <= i < |rows| ==> (r[i] <==> AnyHit(tier, rows[i], tc, kw))
    decreases |tc|
  {
    if |tc| == 0 then seq(|rows|, i => false)
    else
      var m := TierMask(rows, tc[..|tc| - 1], tier, kw);
      var c := tc[|tc| - 1];
      AnyHitSnoc(tier, rows, tc, kw);
      seq(|rows|, i requires 0 <= i < |rows| => m[i] || CellHits(tier, rows[i], c, kw))
  }

  /** `eco_df[mask]` followed by tagging every selected row. */
  function Select(rows: seq<Row>, mask: seq<bool>, tier: MatchType): (r: seq<TaggedRow>)
    requires |mask| == |rows|
    ensures |r| <= |rows|
    ensures forall k :: 0 <= k < |r| ==> r[k].matchType == tier
    decreases |rows|
  {
    if |rows| == 0 then []
    else (if mask[0] then [TaggedRow(rows[0], tier)] else []) + Select(rows[1..], mask[1..], tier)
  }

  /** A tagged row is selected exactly when the mask marks a row equal to it. */
  lemma {:induction false} SelectMembers(rows: seq<Row>, mask: seq<bool>, tier: MatchType, x: TaggedRow)
    requires |mask| == |rows|
    ensures x in Select(rows, mask, tier) <==>
            x.matchType == tier && exists i :: 0 <= i < |rows| && mask[i] && rows[i] == x.row
    decreases |rows|
  {
    if |rows| > 0 {
      SelectMembers(rows[1..], mask[1..], tier, x);
      if exists i :: 0 <= i < |rows| && mask[i] && rows[i] == x.row {
        var i :| 0 <= i < |rows| && mask[i] && rows[i] == x.row;
        if i > 0 {
          assert mask[1..][i - 1] && rows[1..][i - 1] == x.row;
        }
      }
      if exists i :: 0 <= i < |rows[1..]| && mask[1..][i] && rows[1..][i] == x.row {
        var i :| 0 <= i < |rows[1..]| && mask[1..][i] && rows[1..][i] == x.row;
        assert mask[i + 1] && rows[i + 1] == x.row;
      }
    }
  }

  /** Selecting with a mask that marks exactly the matching rows gives the tier. */
  lemma {:induction false} SelectIsMatching(cols: seq<Column>, rows: seq<Row>, mask: seq<bool>, tier: MatchType, kw: string)
    requires |mask| == |rows|
    requires forall i :: 0 <= i < |rows| ==> (mask[i] <==> RowMatches(cols, rows[i], tier, kw))
    ensures Select(rows, mask, tier) == Matching(cols, rows, tier, kw)
    decreases |rows|
  {
    if |rows| > 0 {
      assert forall i :: 0 <= i < |rows| - 1 ==> rows[1..][i] == rows[i + 1] && mask[1..][i] == mask[i + 1];
      SelectIsMatching(cols, rows[1..], mask[1..], tier, kw);
    }
  }

  /** The column-by-column mask over the text columns marks exactly the rows
      that match in the tier. */
  lemma MaskMarksMatches(cols: seq<Column>, rows: seq<Row>, tier: MatchType, kw: string)
    ensures var m := TierMask(rows, TextColumns(cols), tier, kw);
            forall i :: 0 <= i < |rows| ==> (m[i] <==> RowMatches(cols, rows[i], tier, kw))
  {
    var tc := TextColumns(cols);
    var m := TierMask(rows, tc, tier, kw);
    forall i | 0 <= i < |rows|
      ensures m[i] <==> RowMatches(cols, rows[i], tier, kw)
    {
      if RowMatches(cols, rows[i], tier, kw) {
        var j :| 0 <= j < |cols| && cols[j].isText && CellHits(tier, rows[i], j, kw);
        assert j in tc;
        var k :| 0 <= k < |tc| && tc[k] == j;
        assert HitAt(tier, rows[i], kw)(tc[k]);
      }
      if m[i] {
        var k :| 0 <= k < |tc| && HitAt(tier, rows[i], kw)(tc[k]);
        assert CellHits(tier, rows[i], tc[k], kw);
      }
    }
  }

  /** A tier in which no row matches is empty. */
  lemma {:induction false} NothingMatches(cols: seq<Column>, rows: seq<Row>, tier: MatchType, kw: string)
    requires forall i :: 0 <= i < |rows| ==> !RowMatches(cols, rows[i], tier, kw)
    ensures Matching(cols, rows, tier, kw) == []
    decreases |rows|
  {
    if |rows| > 0 {
      assert forall i :: 0 <= i < |rows| - 1 ==> rows[1..][i] == rows[i + 1];
      NothingMatches(cols, rows[1..], tier, kw);
    }
  }

  /** No text column: neither tier can match. */
  lemma NoTextColumnNoMatch(cols: seq<Column>, rows: seq<Row>, tier: MatchType, kw: string)
    requires forall j :: 0 <= j < |cols| ==> !cols[j].isText
    ensures Matching(cols, rows, tier, kw) == []
  {
  }

  /** `find_ecoscore_rows`: the exact tier when it is non-empty, otherwise the
      contains tier (possibly empty). */
  function FindEcoscoreRows(t: Table, keyword: string): (r: seq<TaggedRow>)
    ensures var kw := Text.Normalise(keyword);
            var exact := Matching(t.columns, t.rows, Exact, kw);
            && (|exact| > 0 ==> r == exact)
            && (|exact| == 0 ==> r == Matching(t.columns, t.rows, Contains, kw))
  {
    var kw := Text.Normalise(keyword);
    var tc := TextColumns(t.columns);
    if |tc| == 0 then
      assert forall j :: 0 <= j < |t.columns| ==> !t.columns[j].isText;
      NoTextColumnNoMatch(t.columns, t.rows, Exact, kw);
      NoTextColumnNoMatch(t.columns, t.rows, Contains, kw);
      []
    else
      MaskMarksMatches(t.columns, t.rows, Exact, kw);
      SelectIsMatching(t.columns, t.rows, TierMask(t.rows, tc, Exact, kw), Exact, kw);
      var exact := Select(t.rows, TierMask(t.rows, tc, Exact, kw), Exact);
      if |exact| > 0 then exact
      else
        MaskMarksMatches(t.columns, t.rows, Contains, kw);
        SelectIsMatching(t.columns, t.rows, TierMask(t.rows, tc, Contains, kw), Contains, kw);
        var contains := Select(t.rows, TierMask(t.rows, tc, Contains, kw), Contains);
        if |contains| > 0 then contains else []
  }

  /** An equal cell also contains the keyword: an exact hit is a contains hit. */
  lemma ExactHitContains(cols: seq<Column>, row: Row, kw: string)
    requires RowMatches(cols, row, Exact, kw)
    ensures RowMatches(cols, row, Contains, kw)
  {
    var j :| 0 <= j < |cols| && cols[j].isText && CellHits(Exact, row, j, kw);
    Text.EqualContains(Text.Lower(CellText(row[j])), kw);
  }

  /** The tiers are never mixed: the result is all "exact" or all "contains". */
  lemma NeverMixes(t: Table, keyword: string)
    ensures var r := FindEcoscoreRows(t, keyword);
            (forall m :: m in r ==> m.matchType == Exact) || (forall m :: m in r ==> m.matchType == Contains)
  {
  }

  /** A "contains" row is only ever returned when no row matches exactly. */
  lemma ContainsOnlyWithoutExact(t: Table, keyword: string)
    ensures var r := FindEcoscoreRows(t, keyword);
            (exists m :: m in r && m.matchType == Contains) ==>
              forall i :: 0 <= i < |t.rows| ==> !RowMatches(t.columns, t.rows[i], Exact, Text.Normalise(keyword))
  {
    var kw := Text.Normalise(keyword);
    if exists i :: 0 <= i < |t.rows| && RowMatches(t.columns, t.rows[i], Exact, kw) {
      var i :| 0 <= i < |t.rows| && RowMatches(t.columns, t.rows[i], Exact, kw);
      assert TaggedRow(t.rows[i], Exact) in Matching(t.columns, t.rows, Exact, kw);
    }
  }

  /** The result rows are table rows, unchanged and in table order. */
  lemma ResultIsSubsequence(t: Table, keyword: string)
    ensures IsSubsequence(Untagged(FindEcoscoreRows(t, keyword)), t.rows)
  {
    var kw := Text.Normalise(keyword);
    MatchingSubsequence(t.columns, t.rows, Exact, kw);
    MatchingSubsequence(t.columns, t.rows, Contains, kw);
  }

  /** A row with a text cell equal to the keyword (up to case and the
      keyword's surrounding whitespace) is returned, tagged "exact", and so is
      every other row of the result. */
  lemma ExactRowFound(t: Table, keyword: string, i: nat)
    requires i < |t.rows|
    requires RowMatches(t.columns, t.rows[i], Exact, Text.Normalise(keyword))
    ensures var r := FindEcoscoreRows(t, keyword);
            && TaggedRow(t.rows[i], Exact) in r
            && forall m :: m in r ==> m.matchType == Exact
  {
  }

  /** A keyword that no text cell contains yields an empty result. */
  lemma AbsentKeywordEmpty(t: Table, keyword: string)
    requires forall i :: 0 <= i < |t.rows| ==> !RowMatches(t.columns, t.rows[i], Contains, Text.Normalise(keyword))
    ensures FindEcoscoreRows(t, keyword) == []
  {
    var kw := Text.Normalise(keyword);
    forall i | 0 <= i < |t.rows|
      ensures !RowMatches(t.columns, t.rows[i], Exact, kw)
    {
      if RowMatches(t.columns, t.rows[i], Exact, kw) {
        ExactHitContains(t.columns, t.rows[i], kw);
      }
    }
    NothingMatches(t.columns, t.rows, Exact, kw);
    NothingMatches(t.columns, t.rows, Contains, kw);
  }

  /** A table without text columns never matches. */
  lemma NoTextColumnsEmpty(t: Table, keyword: string)
    requires forall j :: 0 <= j < |t.columns| ==> !t.columns[j].isText
    ensures FindEcoscoreRows(t, keyword) == []
  {
    NoTextColumnNoMatch(t.columns, t.rows, Exact, Text.Normalise(keyword));
    NoTextColumnNoMatch(t.columns, t.rows, Contains, Text.Normalise(keyword));
  }

  /** Only the keyword's normal form matters: surrounding whitespace and
      letter case do not change the result. */
  lemma KeywordNormalisationIrrelevant(t: Table, keyword: string)
    ensures FindEcoscoreRows(t, keyword) == FindEcoscoreRows(t, Text.Normalise(keyword))
  {
    Text.NormaliseIdempotent(keyword);
  }

  /** After loading, a text cell whose stripped, lower-cased value equals the
      normalised keyword makes its (cleaned) row an "exact" result. */
  lemma LoadedCellFound(t: Table, keyword: string, i: nat, j: nat)
    requires WellFormed(t)
    requires i < |t.rows| && j < |t.columns|
    requires t.columns[j].isText && !IsUnnamed(t.columns[j].name)
    requires Text.Normalise(CellText(t.rows[i][j])) == Text.Normalise(keyword)
    ensures var l := LoadEcoScores(t);
            l.Success? ==>
              var r := FindEcoscoreRows(l.value, keyword);
              && TaggedRow(l.value.rows[i], Exact) in r
              && forall m :: m in r ==> m.matchType == Exact
  {
    var l := CleanTable(t);
    var kept := KeptColumns(t.columns);
    assert j in kept;
    var k :| 0 <= k < |kept| && kept[k] == j;
    assert l.columns[k].isText;
    assert l.rows[i][k] == CleanCell(t.columns[j], t.rows[i][j]) == Str(Text.Strip(CellText(t.rows[i][j])));
    assert CellHits(Exact, l.rows[i], k, Text.Normalise(keyword));
    ExactRowFound(l, keyword, i);
  }
}

=== FILE: keywords.dfy ===
/** The keyword list loader, `load_keywords`, written identically in app.py
    and scripts/pull-trends.py: a two-column (category, keyword) file whose
    keywords are stripped, whose rows without a category or with an empty
    keyword are dropped, and whose duplicate keywords keep their first row. */
module Keywords {
  import Text
  import opened Wrappers
  import opened Seqs

  /** One line of the file as read: either field may be missing (NaN). */
  datatype RawKeywordRow = RawKeywordRow(category: Option<string>, keyword: Option<string>)

  /** One row of the loaded keyword table. */
  datatype KeywordEntry = KeywordEntry(category: string, keyword: string)

  /** `astype(str)` of the keyword field, which runs before `dropna`: a
      missing keyword becomes the text "nan" and is not dropped. */
  function KeywordText(k: Option<string>): string {
    match k
    case Some(s) => s
    case None => "nan"
  }

  /** The stripped keyword of a raw row. */
  function StrippedKeyword(row: RawKeywordRow): (r: string)
    ensures Text.IsTrimmed(r)
  {
    Text.StripTrims(KeywordText(row.keyword));
    Text.Strip(KeywordText(row.keyword))
  }

  /** A raw row that survives `dropna` and the empty-keyword filter. */
  predicate Survives(row: RawKeywordRow) {
    row.category.Some? && StrippedKeyword(row) != ""
  }

  /** The set of keywords of a table. */
  function KeywordSet(s: seq<KeywordEntry>): set<string> {
    set e | e in s :: e.keyword
  }

  /** No keyword appears in two rows. */
  predicate DistinctKeywords(s: seq<KeywordEntry>) {
    forall i, j :: 0 <= i < j < |s| ==> s[i].keyword != s[j].keyword
  }

  /** Row `i` is the first row of `s` with its keyword. */
  predicate IsFirstOccurrence(s: seq<KeywordEntry>, i: int)
    requires 0 <= i < |s|
  {
    forall j :: 0 <= j < i ==> s[j].keyword != s[i].keyword
  }

  /** Position of the first row of `s` with keyword `k`, or `|s|` when no row
      has it. */
  function FirstIndex(s: seq<KeywordEntry>, k: string): (n: nat)
    ensures n <= |s|
    ensures n < |s| ==> s[n].keyword == k
    ensures forall j :: 0 <= j < n ==> s[j].keyword != k
    decreases |s|
  {
    if |s| == 0 || s[0].keyword == k then 0
    else 1 + FirstIndex(s[1..], k)
  }

  /** The keywords of `r` come in the order of their first rows in `s`. */
  predicate InFirstRowOrder(r: seq<KeywordEntry>, s: seq<KeywordEntry>) {
    forall k, l :: 0 <= k < l < |r| ==> FirstIndex(s, r[k].keyword) < FirstIndex(s, r[l].keyword)
  }

  /** A head whose keyword `r` lacks does not affect the first-row order. */
  lemma FirstRowOrderTail(r: seq<KeywordEntry>, s: seq<KeywordEntry>)
    requires |s| > 0 && s[0].keyword !in KeywordSet(r)
    ensures InFirstRowOrder(r, s) <==> InFirstRowOrder(r, s[1..])
  {
    assert forall k :: 0 <= k < |r| ==> r[k] in r && r[k].keyword in KeywordSet(r);
    assert forall k :: 0 <= k < |r| ==> FirstIndex(s, r[k].keyword) == 1 + FirstIndex(s[1..], r[k].keyword);
  }

  /** The rows left after stripping, `dropna` and dropping empty keywords, in
      file order. */
  function Candidates(raw: seq<RawKeywordRow>): (r: seq<KeywordEntry>)
    ensures |r| <= |raw|
    ensures forall k :: 0 <= k < |r| ==> r[k].keyword != "" && Text.IsTrimmed(r[k].keyword)
    decreases |raw|
  {
    if |raw| == 0 then []
    else
      var rest := Candidates(raw[1..]);
      if Survives(raw[0]) then [KeywordEntry(raw[0].category.value, StrippedKeyword(raw[0]))] + rest
      else rest
  }

  /** Every candidate comes from a surviving row, with its category and its
      stripped keyword. */
  lemma {:induction false} CandidatesFromRows(raw: seq<RawKeywordRow>)
    ensures forall e :: e in Candidates(raw) ==>
              exists i :: 0 <= i < |raw| && Survives(raw[i]) && raw[i].category == Some(e.category) && StrippedKeyword(raw[i]) == e.keyword
    decreases |raw|
  {
    if |raw| > 0 {
      CandidatesFromRows(raw[1..]);
      forall e | e in Candidates(raw)
        ensures exists i :: 0 <= i < |raw| && Survives(raw[i]) && raw[i].category == Some(e.category) && StrippedKeyword(raw[i]) == e.keyword
      {
        if e in Candidates(raw[1..]) {
          var i :| 0 <= i < |raw[1..]| && Survives(raw[1..][i]) && raw[1..][i].category == Some(e.category) && StrippedKeyword(raw[1..][i]) == e.keyword;
          assert raw[1..][i] == raw[i + 1];
        } else {
          assert Survives(raw[0]) && raw[0].category == Some(e.category) && StrippedKeyword(raw[0]) == e.keyword;
        }
      }
    }
  }

  /** Every surviving row yields a candidate. */
  lemma {:induction false} CandidatesCoverRows(raw: seq<RawKeywordRow>)
    ensures forall i :: 0 <= i < |raw| && Survives(raw[i]) ==>
              KeywordEntry(raw[i].category.value, StrippedKeyword(raw[i])) in Candidates(raw)
    decreases |raw|
  {
    if |raw| > 0 {
      CandidatesCoverRows(raw[1..]);
      forall i | 0 <= i < |raw| && Survives(raw[i])
        ensures KeywordEntry(raw[i].category.value, StrippedKeyword(raw[i])) in Candidates(raw)
      {
        if i > 0 {
          assert raw[1..][i - 1] == raw[i];
        }
      }
    }
  }

  /** `r` is what deduplicating `s` leaves when the keywords in `seen` have
      already been taken: distinct keywords, in order, exactly the keywords
      not yet seen, and the first row of each of them. */
  predicate DedupOf(r: seq<KeywordEntry>, s: seq<KeywordEntry>, seen: set<string>) {
    && DistinctKeywords(r)
    && IsSubsequence(r, s)
    && KeywordSet(r) == KeywordSet(s) - seen
    && (forall i :: 0 <= i < |s| && s[i].keyword !in seen && IsFirstOccurrence(s, i) ==> s[i] in r)
    && InFirstRowOrder(r, s)
  }

  /** The keywords of a table headed by `e`. */
  lemma KeywordSetCons(e: KeywordEntry, s: seq<KeywordEntry>)
    ensures KeywordSet([e] + s) == {e.keyword} + KeywordSet(s)
  {
    assert forall x :: x in [e] + s <==> x == e || x in s;
  }

  /** Prepending a row with a new keyword keeps the keywords distinct. */
  lemma DistinctKeywordsCons(e: KeywordEntry, s: seq<KeywordEntry>)
    requires DistinctKeywords(s) && e.keyword !in KeywordSet(s)
    ensures DistinctKeywords([e] + s)
  {
    var r := [e] + s;
    forall i, j | 0 <= i < j < |r| ensures r[i].keyword != r[j].keyword {
      assert r[j] == s[j - 1];
      if i == 0 {
        assert r[j] in s;
      } else {
        assert r[i] == s[i - 1];
      }
    }
  }

  /** A first occurrence after the head is a first occurrence in the tail. */
  lemma FirstOccurrenceTail(s: seq<KeywordEntry>, i: nat)
    requires 0 < i < |s| && IsFirstOccurrence(s, i)
    ensures IsFirstOccurrence(s[1..], i - 1) && s[1..][i - 1] == s[i]
  {
    assert forall j :: 0 <= j < i - 1 ==> s[1..][j] == s[j + 1];
  }

  /** Deduplication step for a head whose keyword was already seen. */
  lemma DedupSkip(s: seq<KeywordEntry>, seen: set<string>, r: seq<KeywordEntry>)
    requires |s| > 0 && s[0].keyword in seen
    requires DedupOf(r, s[1..], seen)
    ensures DedupOf(r, s, seen)
  {
    assert s == [s[0]] + s[1..];
    SkipSubsequence(s[0], r, s[1..]);
    KeywordSetCons(s[0], s[1..]);
    forall i | 0 <= i < |s| && s[i].keyword !in seen && IsFirstOccurrence(s, i)
      ensures s[i] in r
    {
      FirstOccurrenceTail(s, i);
    }
    FirstRowOrderTail(r, s);
  }

  /** Deduplication step for a head with a new keyword: it is kept. */
  lemma DedupKeep(s: seq<KeywordEntry>, seen: set<string>, rest: seq<KeywordEntry>)
    requires |s| > 0 && s[0].keyword !in seen
    requires DedupOf(rest, s[1..], seen + {s[0].keyword})
    ensures DedupOf([s[0]] + rest, s, seen)
  {
    var k := s[0].keyword;
    var r := [s[0]] + rest;
    assert s == [s[0]] + s[1..];
    ConsSubsequence(s[0], rest, s[1..]);
    KeywordSetCons(s[0], s[1..]);
    KeywordSetCons(s[0], rest);
    DistinctKeywordsCons(s[0], rest);
    forall i | 0 <= i < |s| && s[i].keyword !in seen && IsFirstOccurrence(s, i)
      ensures s[i] in r
    {
      if i > 0 {
        FirstOccurrenceTail(s, i);
        assert s[i].keyword != k;
      }
    }
    DedupKeepOrder(s, rest);
  }

  /** The order half of `DedupKeep`. */
  lemma DedupKeepOrder(s: seq<KeywordEntry>, rest: seq<KeywordEntry>)
    requires |s| > 0 && s[0].keyword !in KeywordSet(rest) && InFirstRowOrder(rest, s[1..])
    ensures InFirstRowOrder([s[0]] + rest, s)
  {
    var r := [s[0]] + rest;
    FirstRowOrderTail(rest, s);
    forall a, b | 0 <= a < b < |r|
      ensures FirstIndex(s, r[a].keyword) < FirstIndex(s, r[b].keyword)
    {
      assert r[b] == rest[b - 1];
      if a > 0 {
        assert r[a] == rest[a - 1];
      }
    }
  }

  /** `drop_duplicates(subset=["keyword"])`, scanning left to right with the
      keywords already seen: keeps the first row of each keyword not in `seen`. */
  function DedupFrom(s: seq<KeywordEntry>, seen: set<string>): (r: seq<KeywordEntry>)
    ensures DistinctKeywords(r)
    ensures IsSubsequence(r, s)
    ensures KeywordSet(r) == KeywordSet(s) - seen
    ensures forall i :: 0 <= i < |s| && s[i].keyword !in seen && IsFirstOccurrence(s, i) ==> s[i] in r
    ensures InFirstRowOrder(r, s)
    decreases |s|
  {
    if |s| == 0 then []
    else if s[0].keyword in seen then
      var r := DedupFrom(s[1..], seen);
      DedupSkip(s, seen, r);
      r
    else
      var rest := DedupFrom(s[1..], seen + {s[0].keyword});
      DedupKeep(s, seen, rest);
      [s[0]] + rest
  }

  /** A description of deduplicating `s` is one of deduplicating its tail
      when the head's keyword was already seen. */
  lemma DedupOfSkip(r: seq<KeywordEntry>, s: seq<KeywordEntry>, seen: set<string>)
    requires |s| > 0 && s[0].keyword in seen && DedupOf(r, s, seen)
    ensures DedupOf(r, s[1..], seen)
  {
    assert s == [s[0]] + s[1..];
    KeywordSetCons(s[0], s[1..]);
    if |r| > 0 {
      assert r[0] in r && r[0].keyword in KeywordSet(r);
    }
    forall i | 0 <= i < |s[1..]| && s[1..][i].keyword !in seen && IsFirstOccurrence(s[1..], i)
      ensures s[1..][i] in r
    {
      assert s[1..][i] == s[i + 1];
      assert forall j :: 0 < j < i + 1 ==> s[j] == s[1..][j - 1];
      assert IsFirstOccurrence(s, i + 1);
    }
    FirstRowOrderTail(r, s);
  }

  /** A description of deduplicating `s` whose head has a new keyword starts
      with that head. */
  lemma DedupOfHeadFirst(r: seq<KeywordEntry>, s: seq<KeywordEntry>, seen: set<string>)
    requires |s| > 0 && s[0].keyword !in seen && DedupOf(r, s, seen)
    ensures |r| > 0 && r[0] == s[0]
  {
    assert IsFirstOccurrence(s, 0);
    var j :| 0 <= j < |r| && r[j] == s[0];
    assert FirstIndex(s, r[j].keyword) == 0;
    assert j == 0;
  }

  /** The rows after a kept head carry exactly the keywords the tail has
      beyond those seen and the head's own. */
  lemma DedupOfRestKeywords(r: seq<KeywordEntry>, s: seq<KeywordEntry>, seen: set<string>)
    requires |s| > 0 && |r| > 0 && r[0] == s[0]
    requires DistinctKeywords(r) && KeywordSet(r) == KeywordSet(s) - seen
    ensures KeywordSet(r[1..]) == KeywordSet(s[1..]) - (seen + {s[0].keyword})
  {
    var k := s[0].keyword;
    var rest := r[1..];
    assert r == [r[0]] + rest && s == [s[0]] + s[1..];
    KeywordSetCons(s[0], s[1..]);
    KeywordSetCons(r[0], rest);
    assert k !in KeywordSet(rest) by {
      forall x | x in rest ensures x.keyword != k {
        var i :| 0 <= i < |rest| && rest[i] == x;
        assert r[i + 1] == x;
      }
    }
    assert KeywordSet(rest) == KeywordSet(r) - {k};
  }

  /** The rows after a kept head hold the first row of every keyword of the
      tail not seen yet, in first-row order. */
  lemma DedupOfRestRows(r: seq<KeywordEntry>, s: seq<KeywordEntry>, seen: set<string>)
    requires |s| > 0 && |r| > 0 && r[0] == s[0] && DedupOf(r, s, seen)
    ensures forall i :: 0 <= i < |s[1..]| && s[1..][i].keyword !in seen + {s[0].keyword} && IsFirstOccurrence(s[1..], i) ==> s[1..][i] in r[1..]
    ensures InFirstRowOrder(r[1..], s[1..])
  {
    var k := s[0].keyword;
    var rest := r[1..];
    forall i | 0 <= i < |s[1..]| && s[1..][i].keyword !in seen + {k} && IsFirstOccurrence(s[1..], i)
      ensures s[1..][i] in rest
    {
      assert s[1..][i] == s[i + 1];
      assert forall j :: 0 < j < i + 1 ==> s[j] == s[1..][j - 1];
      assert IsFirstOccurrence(s, i + 1);
      var m :| 0 <= m < |r| && r[m] == s[i + 1];
      assert rest[m - 1] == s[i + 1];
    }
    forall a, b | 0 <= a < b < |rest|
      ensures FirstIndex(s[1..], rest[a].keyword) < FirstIndex(s[1..], rest[b].keyword)
    {
      assert rest[a] == r[a + 1] && rest[b] == r[b + 1];
    }
  }

  /** A description of deduplicating `s` whose head has a new keyword starts
      with that head, and its rest describes deduplicating the tail. */
  lemma DedupOfHead(r: seq<KeywordEntry>, s: seq<KeywordEntry>, seen: set<string>)
    requires |s| > 0 && s[0].keyword !in seen && DedupOf(r, s, seen)
    ensures |r| > 0 && r[0] == s[0]
    ensures DedupOf(r[1..], s[1..], seen + {s[0].keyword})
  {
    DedupOfHeadFirst(r, s, seen);
    SubsequenceHead(r, s);
    DedupOfRestKeywords(r, s, seen);
    DedupOfRestRows(r, s, seen);
  }

  /** The description pins deduplication down: whatever meets it is exactly
      what `DedupFrom` computes, so the kept rows and their order are fixed. */
  lemma {:induction false} DedupOfUnique(r: seq<KeywordEntry>, s: seq<KeywordEntry>, seen: set<string>)
    requires DedupOf(r, s, seen)
    ensures r == DedupFrom(s, seen)
    decreases |s|
  {
    if |s| == 0 {
      SubsequenceLength(r, s);
    } else if s[0].keyword in seen {
      DedupOfSkip(r, s, seen);
      DedupOfUnique(r, s[1..], seen);
    } else {
      DedupOfHead(r, s, seen);
      DedupOfUnique(r[1..], s[1..], seen + {s[0].keyword});
      assert r == [s[0]] + r[1..];
    }
  }

  /** `load_keywords` after the file is read. */
  function LoadKeywords(raw: seq<RawKeywordRow>): (r: seq<KeywordEntry>)
    ensures forall e :: e in r ==> Text.IsTrimmed(e.keyword) && e.keyword != ""
    ensures DistinctKeywords(r)
    ensures forall e :: e in r ==>
              exists i :: 0 <= i < |raw| && raw[i].category == Some(e.category) && StrippedKeyword(raw[i]) == e.keyword
    ensures forall i :: 0 <= i < |raw| && Survives(raw[i]) ==> StrippedKeyword(raw[i]) in KeywordSet(r)
    ensures IsSubsequence(r, Candidates(raw))
    ensures forall i :: 0 <= i < |Candidates(raw)| && IsFirstOccurrence(Candidates(raw), i) ==> Candidates(raw)[i] in r
    ensures InFirstRowOrder(r, Candidates(raw))
  {
    KeptFromRows(raw);
    KeptCoverRows(raw);
    DedupFrom(Candidates(raw), {})
  }

  /** Every kept entry is the clean-up of some surviving row. */
  lemma KeptFromRows(raw: seq<RawKeywordRow>)
    ensures forall e :: e in DedupFrom(Candidates(raw), {}) ==>
              && Text.IsTrimmed(e.keyword) && e.keyword != ""
              && exists i :: 0 <= i < |raw| && raw[i].category == Some(e.category) && StrippedKeyword(raw[i]) == e.keyword
  {
    var c := Candidates(raw);
    var r := DedupFrom(c, {});
    SubsequenceMembers(r, c);
    CandidatesFromRows(raw);
    forall e | e in r
      ensures && Text.IsTrimmed(e.keyword) && e.keyword != ""
              && exists i :: 0 <= i < |raw| && raw[i].category == Some(e.category) && StrippedKeyword(raw[i]) == e.keyword
    {
      var i :| 0 <= i < |raw| && Survives(raw[i]) && raw[i].category == Some(e.category) && StrippedKeyword(raw[i]) == e.keyword;
    }
  }

  /** The keyword of every surviving row is kept. */
  lemma KeptCoverRows(raw: seq<RawKeywordRow>)
    ensures forall i :: 0 <= i < |raw| && Survives(raw[i]) ==> StrippedKeyword(raw[i]) in KeywordSet(DedupFrom(Candidates(raw), {}))
  {
    var c := Candidates(raw);
    CandidatesCoverRows(raw);
    forall i | 0 <= i < |raw| && Survives(raw[i])
      ensures StrippedKeyword(raw[i]) in KeywordSet(c)
    {
      assert KeywordEntry(raw[i].category.value, StrippedKeyword(raw[i])) in c;
    }
  }

  /** The candidate of the first surviving row with a keyword is that
      keyword's first occurrence among the candidates. */
  lemma {:induction false} FirstCandidate(raw: seq<RawKeywordRow>, i: nat) returns (n: nat)
    requires i < |raw| && Survives(raw[i])
    requires forall l :: 0 <= l < i && Survives(raw[l]) ==> StrippedKeyword(raw[l]) != StrippedKeyword(raw[i])
    ensures n < |Candidates(raw)|
    ensures Candidates(raw)[n] == KeywordEntry(raw[i].category.value, StrippedKeyword(raw[i]))
    ensures IsFirstOccurrence(Candidates(raw), n)
    decreases i
  {
    var k := StrippedKeyword(raw[i]);
    var tail := raw[1..];
    if i == 0 {
      assert Candidates(raw) == [KeywordEntry(raw[0].category.value, k)] + Candidates(tail);
      n := 0;
    } else {
      assert tail[i - 1] == raw[i];
      forall l | 0 <= l < i - 1 && Survives(tail[l])
        ensures StrippedKeyword(tail[l]) != k
      {
        assert tail[l] == raw[l + 1];
      }
      var n' := FirstCandidate(tail, i - 1);
      if Survives(raw[0]) {
        var head := KeywordEntry(raw[0].category.value, StrippedKeyword(raw[0]));
        assert Candidates(raw) == [head] + Candidates(tail);
        FirstOccurrenceCons(head, Candidates(tail), n');
        n := n' + 1;
      } else {
        assert Candidates(raw) == Candidates(tail);
        n := n';
      }
    }
  }

  /** Putting a row with another keyword in front shifts a first occurrence
      by one. */
  lemma FirstOccurrenceCons(e: KeywordEntry, s: seq<KeywordEntry>, n: nat)
    requires n < |s| && IsFirstOccurrence(s, n) && e.keyword != s[n].keyword
    ensures ([e] + s)[n + 1] == s[n] && IsFirstOccurrence([e] + s, n + 1)
  {
    var r := [e] + s;
    assert forall j :: 1 <= j <= n + 1 ==> r[j] == s[j - 1];
  }

  /** Of several rows with the same keyword, only the first is kept, with
      its category, whatever the categories of the later ones. */
  lemma FirstRowKept(raw: seq<RawKeywordRow>, i: nat)
    requires i < |raw| && Survives(raw[i])
    requires forall l :: 0 <= l < i && Survives(raw[l]) ==> StrippedKeyword(raw[l]) != StrippedKeyword(raw[i])
    ensures KeywordEntry(raw[i].category.value, StrippedKeyword(raw[i])) in LoadKeywords(raw)
    ensures forall e :: e in LoadKeywords(raw) && e.keyword == StrippedKeyword(raw[i]) ==> e.category == raw[i].category.value
  {
    var entry := KeywordEntry(raw[i].category.value, StrippedKeyword(raw[i]));
    var n := FirstCandidate(raw, i);
    var r := LoadKeywords(raw);
    assert entry in r;
    forall e | e in r && e.keyword == entry.keyword
      ensures e.category == entry.category
    {
      SameKeywordSameRow(r, e, entry);
    }
  }

  /** In a table with distinct keywords, a keyword determines its row. */
  lemma SameKeywordSameRow(r: seq<KeywordEntry>, e1: KeywordEntry, e2: KeywordEntry)
    requires DistinctKeywords(r) && e1 in r && e2 in r && e1.keyword == e2.keyword
    ensures e1 == e2
  {
    var a :| 0 <= a < |r| && r[a] == e1;
    var b :| 0 <= b < |r| && r[b] == e2;
    assert !(a < b) && !(b < a);
  }

  /** The candidates of two concatenated files are concatenated. */
  lemma {:induction false} CandidatesAppend(a: seq<RawKeywordRow>, b: seq<RawKeywordRow>)
    ensures Candidates(a + b) == Candidates(a) + Candidates(b)
    decreases |a|
  {
    if |a| > 0 {
      assert (a + b)[1..] == a[1..] + b;
      assert (a + b)[0] == a[0];
      CandidatesAppend(a[1..], b);
    } else {
      assert a + b == b;
    }
  }

  /** A row whose keyword field is missing is not dropped: its keyword reads "nan". */
  lemma MissingKeywordReadsNan(category: string)
    ensures LoadKeywords([RawKeywordRow(Some(category), None)]) == [KeywordEntry(category, "nan")]
  {
    Text.StripTrimmed("nan");
    var raw := [RawKeywordRow(Some(category), None)];
    assert Survives(raw[0]);
    assert Candidates(raw[1..]) == [];
    assert Candidates(raw) == [KeywordEntry(category, "nan")];
  }
}

=== FILE: pipeline.dfy ===
/** How the pieces fit together: the keyword table feeds the extraction
    script, whose output is the trend cache the backend serves. */
module Pipeline {
  import opened Wrappers
  import opened Keywords
  import opened TrendCache
  import opened PullTrends
  import opened Backend

  /** The number of provider points a response carries (none on an error). */
  function PointCount(response: ProviderResponse): nat {
    match response
    case Points(ps) => |ps|
    case ProviderError(_) => 0
  }

  /** Every point the provider gave for a loaded keyword is in the cache
      under that keyword, and nothing else is. */
  lemma FetchedPointsCounted(raw: seq<RawKeywordRow>, responses: seq<ProviderResponse>, i: nat)
    requires i < |responses|
    ensures var entries := LoadKeywords(raw);
            |responses| == |entries| ==>
            |RecordsFor(ExtractAll(entries, responses), entries[i].keyword)| == PointCount(responses[i])
  {
    var entries := LoadKeywords(raw);
    if |responses| == |entries| {
      RecordsOfKeyword(entries, responses, i);
    }
  }

  /** A keyword's block of records carries only its own category, and is
      non-empty exactly when the provider gave points. */
  lemma OwnCategoryRecords(entry: KeywordEntry, response: ProviderResponse, c: string)
    ensures (exists t :: t in KeywordRecords(entry, response) && CategoryOf(t) == c) <==>
            c == entry.category && PointCount(response) > 0
  {
    var mine := KeywordRecords(entry, response);
    if c == entry.category && PointCount(response) > 0 {
      assert |mine| > 0;
      assert mine[0] in mine;
    }
  }

  /** `/keywords` lists a loaded keyword under exactly one category, its own,
      and only when the provider gave points for it. */
  lemma ListedUnderOwnCategory(raw: seq<RawKeywordRow>, responses: seq<ProviderResponse>, i: nat, c: string)
    requires i < |responses|
    ensures var entries := LoadKeywords(raw);
            |responses| == |entries| ==>
              var listing := GetKeywords(ExtractAll(entries, responses));
              (Files(listing.byCategory, c, entries[i].keyword) <==>
               c == entries[i].category && PointCount(responses[i]) > 0)
  {
    var entries := LoadKeywords(raw);
    if |responses| == |entries| {
      var data := ExtractAll(entries, responses);
      RecordsOfKeyword(entries, responses, i);
      ListedIffRecord(data, c, entries[i].keyword);
      OwnCategoryRecords(entries[i], responses[i], c);
    }
  }

  /** In a successful summary of the cache, every keyword's `data_points`
      is the number of points the provider gave for it. */
  lemma SummaryCountsFetchedPoints(raw: seq<RawKeywordRow>, responses: seq<ProviderResponse>, i: nat)
    requires i < |responses|
    ensures var entries := LoadKeywords(raw);
            |responses| == |entries| ==>
              var s := GetTrendsSummary(ExtractAll(entries, responses));
              s.Success? ==>
                forall j :: 0 <= j < |s.value| && s.value[j].keyword == entries[i].keyword ==>
                  s.value[j].brands[0].1.dataPoints == PointCount(responses[i])
  {
    FetchedPointsCounted(raw, responses, i);
  }
}

=== FILE: pull_trends.dfy ===
/** The batch extraction script (scripts/pull-trends.py) without its I/O:
    normalising one provider response, and assembling the records of all
    keywords into the list that is written to the trend cache. The provider
    is replaced by the response it gave for each keyword. */
module PullTrends {
  import opened Wrappers
  import opened Seqs
  import opened Keywords
  import opened TrendCache

  /** One point of `interest_over_time`: its date (already rendered as an ISO
      date) and its score, `None` when it is not numeric. */
  datatype ProviderPoint = ProviderPoint(date: string, score: Option<int>)

  /** What the provider did for one keyword: returned a (possibly empty, or
      `None`) frame of points, or raised. */
  datatype ProviderResponse = Points(points: seq<ProviderPoint>) | ProviderError(message: string)

  /** A normalised row: exactly the columns keyword, date and trend_score. */
  datatype TrendRow = TrendRow(keyword: string, date: string, trendScore: Option<int>)

  /** `pull_interest_over_time` of the script: every point stamped with the
      queried keyword; an empty response or a raised error gives no rows. */
  function PullInterestOverTime(keyword: string, response: ProviderResponse): (r: seq<TrendRow>)
    ensures forall row :: row in r ==> row.keyword == keyword
    ensures response.ProviderError? ==> r == []
    ensures response.Points? ==> |r| == |response.points|
  {
    match response
    case ProviderError(_) => []
    case Points(ps) => seq(|ps|, i requires 0 <= i < |ps| => TrendRow(keyword, ps[i].date, ps[i].score))
  }

  /** The provider's points, read back from normalised rows. */
  function PointsOf(rows: seq<TrendRow>): (r: seq<ProviderPoint>)
    ensures |r| == |rows|
  {
    seq(|rows|, i requires 0 <= i < |rows| => ProviderPoint(rows[i].date, rows[i].trendScore))
  }

  /** Normalising loses nothing: the dates and scores are the provider's, in
      the provider's order. */
  lemma NormaliseRoundTrip(keyword: string, points: seq<ProviderPoint>)
    ensures PointsOf(PullInterestOverTime(keyword, Points(points))) == points
  {
  }

  /** The dashboard's `pull_interest_over_time` (app.py) normalises the same
      way but lets a provider error propagate. */
  function AppPullInterestOverTime(keyword: string, response: ProviderResponse): (r: Result<seq<TrendRow>, string>)
    ensures r.Failure? <==> response.ProviderError?
    ensures r.Success? ==> r.value == PullInterestOverTime(keyword, response)
  {
    match response
    case ProviderError(m) => Failure(m)
    case Points(ps) => Success(seq(|ps|, i requires 0 <= i < |ps| => TrendRow(keyword, ps[i].date, ps[i].score)))
  }

  /** `record['category'] = category` for every record of one keyword. */
  function StampCategory(rows: seq<TrendRow>, category: string): (r: seq<TrendRecord>)
    ensures |r| == |rows|
    ensures forall i :: 0 <= i < |r| ==>
              r[i].category == Some(category) && r[i].keyword == rows[i].keyword
              && r[i].date == rows[i].date && r[i].trendScore == rows[i].trendScore
  {
    seq(|rows|, i requires 0 <= i < |rows| =>
      TrendRecord(rows[i].keyword, rows[i].date, rows[i].trendScore, Some(category)))
  }

  /** The records one keyword contributes to `all_trends`. */
  function KeywordRecords(entry: KeywordEntry, response: ProviderResponse): (r: seq<TrendRecord>)
    ensures forall t :: t in r ==> t.keyword == entry.keyword && t.category == Some(entry.category)
  {
    var rows := PullInterestOverTime(entry.keyword, response);
    if |rows| > 0 then StampCategory(rows, entry.category) else []
  }

  /** The loop of `main`: `all_trends` extended keyword by keyword, where
      `responses[i]` is what the provider gave for `entries[i]`. */
  function ExtractAll(entries: seq<KeywordEntry>, responses: seq<ProviderResponse>): (r: seq<TrendRecord>)
    requires |responses| == |entries|
    ensures forall t :: t in r ==>
              exists i :: 0 <= i < |entries| && t.keyword == entries[i].keyword && t.category == Some(entries[i].category)
    decreases |entries|
  {
    if |entries| == 0 then []
    else
      var rest := ExtractAll(entries[1..], responses[1..]);
      assert forall i :: 1 <= i < |entries| ==> entries[1..][i - 1] == entries[i];
      KeywordRecords(entries[0], responses[0]) + rest
  }

  /** The records each keyword contributes, one block per keyword. */
  function Blocks(entries: seq<KeywordEntry>, responses: seq<ProviderResponse>): seq<seq<TrendRecord>>
    requires |responses| == |entries|
  {
    seq(|entries|, i requires 0 <= i < |entries| => KeywordRecords(entries[i], responses[i]))
  }

  /** The blocks after the first are the blocks of the remaining keywords. */
  lemma BlocksTail(entries: seq<KeywordEntry>, responses: seq<ProviderResponse>)
    requires |responses| == |entries| > 0
    ensures Blocks(entries, responses)[1..] == Blocks(entries[1..], responses[1..])
  {
    var b := Blocks(entries, responses);
    var t := Blocks(entries[1..], responses[1..]);
    assert |b[1..]| == |t|;
    forall i | 0 <= i < |t| ensures b[1..][i] == t[i] {
      assert entries[1..][i] == entries[i + 1] && responses[1..][i] == responses[i + 1];
    }
  }

  /** `all_trends` is the concatenation, in keyword order, of the records
      each keyword contributed. */
  lemma {:induction false} ExtractAllIsConcatenation(entries: seq<KeywordEntry>, responses: seq<ProviderResponse>)
    requires |responses| == |entries|
    ensures ExtractAll(entries, responses) == Flatten(Blocks(entries, responses))
    decreases |entries|
  {
    if |entries| > 0 {
      ExtractAllIsConcatenation(entries[1..], responses[1..]);
      BlocksTail(entries, responses);
    }
  }

  /** With distinct keywords (as `load_keywords` guarantees), selecting the
      records of keyword `i` from `all_trends` gives back exactly that
      keyword's provider points, stamped with its category; a keyword whose
      pull failed or came back empty has no records. */
  lemma {:induction false} RecordsOfKeyword(entries: seq<KeywordEntry>, responses: seq<ProviderResponse>, i: nat)
    requires |responses| == |entries| && i < |entries|
    requires DistinctKeywords(entries)
    ensures RecordsFor(ExtractAll(entries, responses), entries[i].keyword) == KeywordRecords(entries[i], responses[i])
    decreases |entries|
  {
    var k := entries[i].keyword;
    var head := KeywordRecords(entries[0], responses[0]);
    var rest := ExtractAll(entries[1..], responses[1..]);
    RecordsForAppend(head, rest, k);
    if i == 0 {
      assert RecordsFor(head, k) == head by { AllOfKeyword(head, k); }
      assert RecordsFor(rest, k) == [] by {
        forall t | t in rest ensures t.keyword != k {
          var j :| 0 <= j < |entries[1..]| && t.keyword == entries[1..][j].keyword;
          assert entries[1..][j] == entries[j + 1];
        }
        NoneOfKeyword(rest, k);
      }
    } else {
      assert entries[0].keyword != k;
      NoneOfKeyword(head, k);
      assert entries[1..][i - 1] == entries[i];
      RecordsOfKeyword(entries[1..], responses[1..], i - 1);
    }
  }

  lemma {:induction false} AllOfKeyword(data: seq<TrendRecord>, k: string)
    requires forall t :: t in data ==> t.keyword == k
    ensures RecordsFor(data, k) == data
    decreases |data|
  {
    if |data| > 0 {
      assert data[0] in data;
      AllOfKeyword(data[1..], k);
    }
  }

  lemma {:induction false} NoneOfKeyword(data: seq<TrendRecord>, k: string)
    requires forall t :: t in data ==> t.keyword != k
    ensures RecordsFor(data, k) == []
    decreases |data|
  {
    if |data| > 0 {
      assert data[0] in data;
      NoneOfKeyword(data[1..], k);
    }
  }
}

=== FILE: seqs.dfy ===
/** Generic facts about sequences: order-preserving selection, flattening
    and duplicate-freedom. */
module Seqs {

  /** `a` is `b` with some elements left out, the rest kept in order. */
  predicate IsSubsequence<T(==)>(a: seq<T>, b: seq<T>)
    decreases |b|
  {
    |a| == 0 ||
    (|b| > 0 &&
     ((a[0] == b[0] && IsSubsequence(a[1..], b[1..])) || IsSubsequence(a, b[1..])))
  }

  /** Every element of a subsequence is an element of the whole. */
  lemma {:induction false} SubsequenceMembers<T>(a: seq<T>, b: seq<T>)
    requires IsSubsequence(a, b)
    ensures forall x :: x in a ==> x in b
    decreases |b|
  {
    if |a| > 0 {
      if a[0] == b[0] && IsSubsequence(a[1..], b[1..]) {
        SubsequenceMembers(a[1..], b[1..]);
        assert forall x :: x in a ==> x == a[0] || x in a[1..];
      } else {
        SubsequenceMembers(a, b[1..]);
      }
    }
  }

  /** A subsequence is never longer than the whole. */
  lemma {:induction false} SubsequenceLength<T>(a: seq<T>, b: seq<T>)
    requires IsSubsequence(a, b)
    ensures |a| <= |b|
    decreases |b|
  {
    if |a| > 0 {
      if a[0] == b[0] && IsSubsequence(a[1..], b[1..]) {
        SubsequenceLength(a[1..], b[1..]);
      } else {
        SubsequenceLength(a, b[1..]);
      }
    }
  }

  /** Keeping the first element of both sides preserves the relation. */
  lemma ConsSubsequence<T>(x: T, a: seq<T>, b: seq<T>)
    requires IsSubsequence(a, b)
    ensures IsSubsequence([x] + a, [x] + b)
  {
    assert ([x] + a)[1..] == a;
    assert ([x] + b)[1..] == b;
  }

  /** Dropping the first element of the whole preserves the relation. */
  lemma SkipSubsequence<T>(x: T, a: seq<T>, b: seq<T>)
    requires IsSubsequence(a, b)
    ensures IsSubsequence(a, [x] + b)
  {
    assert ([x] + b)[1..] == b;
  }

  /** Dropping the first element of the part preserves the relation. */
  lemma {:induction false} SubsequenceTail<T>(a: seq<T>, b: seq<T>)
    requires |a| > 0 && IsSubsequence(a, b)
    ensures IsSubsequence(a[1..], b)
    decreases |b|
  {
    if !(a[0] == b[0] && IsSubsequence(a[1..], b[1..])) {
      SubsequenceTail(a, b[1..]);
    }
  }

  /** When both start with the same element, the rests are related. */
  lemma SubsequenceHead<T>(a: seq<T>, b: seq<T>)
    requires |a| > 0 && |b| > 0 && a[0] == b[0] && IsSubsequence(a, b)
    ensures IsSubsequence(a[1..], b[1..])
  {
    if !IsSubsequence(a[1..], b[1..]) {
      SubsequenceTail(a, b[1..]);
    }
  }

  /** Every sequence is a subsequence of itself. */
  lemma {:induction false} SubsequenceReflexive<T>(a: seq<T>)
    ensures IsSubsequence(a, a)
    decreases |a|
  {
    if |a| > 0 {
      SubsequenceReflexive(a[1..]);
    }
  }

  /** Some element of `s` passes the test `p`. */
  predicate Any<T>(s: seq<T>, p: T -> bool) {
    exists k :: 0 <= k < |s| && p(s[k])
  }

  /** Growing a sequence by one element adds exactly that element's test. */
  lemma AnySnoc<T>(s: seq<T>, p: T -> bool)
    requires |s| > 0
    ensures Any(s, p) <==> Any(s[..|s| - 1], p) || p(s[|s| - 1])
  {
    var front := s[..|s| - 1];
    if Any(s, p) {
      var k :| 0 <= k < |s| && p(s[k]);
      if k < |front| {
        assert front[k] == s[k];
      }
    }
    if Any(front, p) {
      var k :| 0 <= k < |front| && p(front[k]);
      assert s[k] == front[k];
    }
  }

  /** The concatenation of a sequence of sequences, in order. */
  function Flatten<T>(ss: seq<seq<T>>): (r: seq<T>)
    decreases |ss|
  {
    if |ss| == 0 then [] else ss[0] + Flatten(ss[1..])
  }

  /** Flattening distributes over concatenation. */
  lemma {:induction false} FlattenAppend<T>(a: seq<seq<T>>, b: seq<seq<T>>)
    ensures Flatten(a + b) == Flatten(a) + Flatten(b)
    decreases |a|
  {
    if |a| > 0 {
      assert (a + b)[1..] == a[1..] + b;
      FlattenAppend(a[1..], b);
    } else {
      assert a + b == b;
    }
  }

  /** No element occurs twice. */
  predicate Distinct<T(==)>(s: seq<T>) {
    forall i, j :: 0 <= i < j < |s| ==> s[i] != s[j]
  }

  /** Appending an element that is not yet present keeps a sequence distinct. */
  lemma DistinctSnoc<T>(s: seq<T>, x: T)
    requires Distinct(s) && x !in s
    ensures Distinct(s + [x])
  {
    var r := s + [x];
    assert forall i :: 0 <= i < |s| ==> r[i] == s[i];
  }

  /** The sequence read backwards. */
  function Reverse<T>(s: seq<T>): (r: seq<T>)
    ensures |r| == |s|
    ensures forall i :: 0 <= i < |s| ==> r[i] == s[|s| - 1 - i]
  {
    seq(|s|, i requires 0 <= i < |s| => s[|s| - 1 - i])
  }

  /** The elements of `s` in order of first appearance, each once. */
  function FirstSeen<T(==, !new)>(s: seq<T>): (r: seq<T>)
    ensures Distinct(r)
    ensures forall x :: x in r <==> x in s
    decreases |s|
  {
    if |s| == 0 then []
    else
      var init := s[..|s| - 1];
      var x := s[|s| - 1];
      var r := FirstSeen(init);
      assert s == init + [x];
      if x in r then r
      else
        DistinctSnoc(r, x);
        r + [x]
  }

  /** The elements of a sequence as a set. */
  function Elements<T>(s: seq<T>): set<T> {
    set x | x in s
  }

  /** A sequence without duplicates has exactly as many elements as its set. */
  lemma {:induction false} DistinctCardinality<T>(s: seq<T>)
    requires Distinct(s)
    ensures |Elements(s)| == |s|
    decreases |s|
  {
    if |s| > 0 {
      var t := s[..|s| - 1];
      assert Distinct(t);
      DistinctCardinality(t);
      assert Elements(s) == Elements(t) + {s[|s| - 1]};
      assert s[|s| - 1] !in Elements(t);
    }
  }
}

=== FILE: sorting.dfy ===
/** Python's ordering of strings (code point by code point, a proper
    prefix first) and `sorted(set(xs))`. */
module Sorting {
  import opened Seqs

  /** `a < b` on Python strings. */
  predicate LexLess(a: string, b: string)
    decreases |a|
  {
    |b| > 0 && (|a| == 0 || a[0] < b[0] || (a[0] == b[0] && LexLess(a[1..], b[1..])))
  }

  lemma {:induction false} LexIrreflexive(a: string)
    ensures !LexLess(a, a)
    decreases |a|
  {
    if |a| > 0 {
      LexIrreflexive(a[1..]);
    }
  }

  lemma {:induction false} LexTransitive(a: string, b: string, c: string)
    requires LexLess(a, b) && LexLess(b, c)
    ensures LexLess(a, c)
    decreases |a|
  {
    if |a| > 0 && a[0] == b[0] && b[0] == c[0] {
      LexTransitive(a[1..], b[1..], c[1..]);
    }
  }

  lemma {:induction false} LexTotal(a: string, b: string)
    requires a != b
    ensures LexLess(a, b) || LexLess(b, a)
    decreases |a|
  {
    if |a| > 0 && |b| > 0 && a[0] == b[0] {
      assert a == [a[0]] + a[1..] && b == [b[0]] + b[1..];
      LexTotal(a[1..], b[1..]);
    }
  }

  lemma LexAsymmetric(a: string, b: string)
    requires LexLess(a, b)
    ensures !LexLess(b, a)
  {
    if LexLess(b, a) {
      LexTransitive(a, b, a);
      LexIrreflexive(a);
    }
  }

  /** Strictly increasing, hence free of duplicates. */
  predicate StrictlySorted(s: seq<string>) {
    forall i, j :: 0 <= i < j < |s| ==> LexLess(s[i], s[j])
  }

  lemma StrictlySortedDistinct(s: seq<string>)
    requires StrictlySorted(s)
    ensures Distinct(s)
  {
    forall i, j | 0 <= i < j < |s|
      ensures s[i] != s[j]
    {
      if s[i] == s[j] {
        LexIrreflexive(s[i]);
      }
    }
  }

  /** Inserts `x` into a strictly sorted sequence, unless it is already there. */
  function Insert(x: string, s: seq<string>): (r: seq<string>)
    requires StrictlySorted(s)
    ensures StrictlySorted(r)
    ensures Elements(r) == Elements(s) + {x}
    decreases |s|
  {
    if |s| == 0 then [x]
    else if x == s[0] then s
    else if LexLess(x, s[0]) then
      assert forall j :: 0 < j < |s| ==> LexLess(s[0], s[j]);
      forall j | 0 <= j < |s| ensures LexLess(x, s[j]) {
        if j > 0 { LexTransitive(x, s[0], s[j]); }
      }
      [x] + s
    else
      LexTotal(x, s[0]);
      var t := Insert(x, s[1..]);
      assert Elements(s) == {s[0]} + Elements(s[1..]);
      forall y | y in t ensures LexLess(s[0], y) {
        assert y in Elements(t);
        if y != x {
          assert y in Elements(s[1..]);
          var j :| 0 <= j < |s[1..]| && s[1..][j] == y;
          assert s[j + 1] == y;
        }
      }
      assert Elements([s[0]] + t) == {s[0]} + Elements(t);
      [s[0]] + t
  }

  /** `sorted(set(xs))`: the elements of `xs` without repetition, in order. */
  function SortedSet(xs: seq<string>): (r: seq<string>)
    ensures StrictlySorted(r)
    ensures Elements(r) == Elements(xs)
    decreases |xs|
  {
    if |xs| == 0 then []
    else
      var r := Insert(xs[|xs| - 1], SortedSet(xs[..|xs| - 1]));
      assert Elements(xs) == Elements(xs[..|xs| - 1]) + {xs[|xs| - 1]};
      r
  }

  /** Two strictly sorted sequences with the same elements are equal: the
      sorted, duplicate-free list of a set is unique. */
  lemma {:induction false} SortedUnique(a: seq<string>, b: seq<string>)
    requires StrictlySorted(a) && StrictlySorted(b)
    requires Elements(a) == Elements(b)
    ensures a == b
    decreases |a|
  {
    assert |a| > 0 ==> a[0] in Elements(b);
    assert |b| > 0 ==> b[0] in Elements(a);
    if |a| > 0 && |b| > 0 {
      if a[0] != b[0] {
        assert a[0] in Elements(b);
        assert b[0] in Elements(a);
        var i :| 0 <= i < |b| && b[i] == a[0];
        var j :| 0 <= j < |a| && a[j] == b[0];
        assert i > 0 && j > 0;
        LexAsymmetric(b[0], b[i]);
      }
      assert Elements(a[1..]) == Elements(a) - {a[0]} by {
        StrictlySortedDistinct(a);
        assert a == [a[0]] + a[1..];
      }
      assert Elements(b[1..]) == Elements(b) - {b[0]} by {
        StrictlySortedDistinct(b);
        assert b == [b[0]] + b[1..];
      }
      SortedUnique(a[1..], b[1..]);
    }
  }
}

=== FILE: text.dfy ===
/** The string primitives the modelled code relies on: Python's
    `str.isspace`, `str.strip`, `str.lower` (restricted to ASCII letters) and
    substring containment (`in`, and `Series.str.contains` without regular
    expression metacharacters). */
module Text {

  /** Python's `str.isspace` for a single code point. */
  predicate IsSpace(c: char) {
    var n := c as int;
    n == 0x20 || 0x09 <= n <= 0x0D || 0x1C <= n <= 0x1F || n == 0x85 || n == 0xA0
    || n == 0x1680 || 0x2000 <= n <= 0x200A || n == 0x2028 || n == 0x2029
    || n == 0x202F || n == 0x205F || n == 0x3000
  }

  /** Every character of `s` in `[lo, hi)` is whitespace. */
  predicate SpaceBetween(s: string, lo: int, hi: int)
    requires 0 <= lo <= hi <= |s|
  {
    forall k :: lo <= k < hi ==> IsSpace(s[k])
  }

  /** `s` has no surrounding whitespace: what `str.strip` returns. */
  predicate IsTrimmed(s: string) {
    |s| == 0 || (!IsSpace(s[0]) && !IsSpace(s[|s| - 1]))
  }

  /** The end of the run of whitespace that starts at `k`. */
  function LeadingEnd(s: string, k: nat): (i: nat)
    requires k <= |s|
    ensures k <= i <= |s| && SpaceBetween(s, k, i)
    ensures i == |s| || !IsSpace(s[i])
    decreases |s| - k
  {
    if k < |s| && IsSpace(s[k]) then LeadingEnd(s, k + 1) else k
  }

  /** The start of the run of whitespace that ends at `k`, not going below `lo`. */
  function TrailingStart(s: string, lo: nat, k: nat): (j: nat)
    requires lo <= k <= |s|
    ensures lo <= j <= k && SpaceBetween(s, j, k)
    ensures j == lo || !IsSpace(s[j - 1])
    decreases k - lo
  {
    if k > lo && IsSpace(s[k - 1]) then TrailingStart(s, lo, k - 1) else k
  }

  /** Cutting `s[..i]` and `s[j..]`, both all whitespace, leaves `s[i..j]`. */
  predicate StripsTo(s: string, i: int, j: int) {
    0 <= i <= j <= |s| && SpaceBetween(s, 0, i) && SpaceBetween(s, j, |s|)
  }

  /** Python's `str.strip()`: cuts the run of whitespace at the start, then
      the run at the end of what is left. */
  function Strip(s: string): string {
    var i := LeadingEnd(s, 0);
    s[i..TrailingStart(s, i, |s|)]
  }

  /** What `Strip` returns has no surrounding whitespace. */
  lemma StripTrims(s: string)
    ensures IsTrimmed(Strip(s))
  {
  }

  /** What `Strip` returns is the infix of `s` left after cutting an
      all-whitespace prefix and an all-whitespace suffix. */
  lemma StripInfix(s: string)
    ensures exists i, j :: StripsTo(s, i, j) && Strip(s) == s[i..j]
  {
    var i := LeadingEnd(s, 0);
    var j := TrailingStart(s, i, |s|);
    assert StripsTo(s, i, j);
  }

  /** Stripping a trimmed string changes nothing, so `Strip` is idempotent. */
  lemma StripTrimmed(s: string)
    requires IsTrimmed(s)
    ensures Strip(s) == s
  {
    if |s| > 0 {
      assert LeadingEnd(s, 0) == 0;
      assert TrailingStart(s, 0, |s|) == |s|;
    }
  }

  /** ASCII lower-casing of one character. */
  function LowerChar(c: char): char {
    if 'A' <= c <= 'Z' then (c as int + 32) as char else c
  }

  /** `str.lower()` on the ASCII letters: every character is mapped on its own. */
  function Lower(s: string): (r: string)
    ensures |r| == |s|
    ensures forall i :: 0 <= i < |s| ==> r[i] == LowerChar(s[i])
  {
    seq(|s|, i requires 0 <= i < |s| => LowerChar(s[i]))
  }

  /** Lower-casing maps whitespace to itself and nothing else to whitespace. */
  lemma LowerCharSpace(c: char)
    ensures IsSpace(LowerChar(c)) <==> IsSpace(c)
    ensures IsSpace(c) ==> LowerChar(c) == c
  {
  }

  /** Lower-casing twice is lower-casing once. */
  lemma LowerIdempotent(s: string)
    ensures Lower(Lower(s)) == Lower(s)
  {
  }

  /** Lower-casing touches no whitespace, so it commutes with stripping. */
  lemma StripLowerCommute(s: string)
    ensures Strip(Lower(s)) == Lower(Strip(s))
  {
    var i := LeadingEnd(s, 0);
    var j := TrailingStart(s, i, |s|);
    LeadingEndLower(s, 0);
    TrailingStartLower(s, i, |s|);
    assert Strip(Lower(s)) == Lower(s)[i..j];
    LowerSlice(s, i, j);
  }

  /** Lower-casing a slice is slicing the lower-cased string. */
  lemma LowerSlice(s: string, i: int, j: int)
    requires 0 <= i <= j <= |s|
    ensures Lower(s)[i..j] == Lower(s[i..j])
  {
    var a := Lower(s)[i..j];
    var b := Lower(s[i..j]);
    forall k | 0 <= k < j - i
      ensures a[k] == b[k]
    {
      assert a[k] == Lower(s)[i + k];
      assert s[i..j][k] == s[i + k];
    }
  }

  lemma {:induction false} LeadingEndLower(s: string, k: nat)
    requires k <= |s|
    ensures LeadingEnd(Lower(s), k) == LeadingEnd(s, k)
    decreases |s| - k
  {
    if k < |s| {
      LowerCharSpace(s[k]);
      if IsSpace(s[k]) {
        LeadingEndLower(s, k + 1);
      }
    }
  }

  lemma {:induction false} TrailingStartLower(s: string, lo: nat, k: nat)
    requires lo <= k <= |s|
    ensures TrailingStart(Lower(s), lo, k) == TrailingStart(s, lo, k)
    decreases k - lo
  {
    if k > lo {
      LowerCharSpace(s[k - 1]);
      if IsSpace(s[k - 1]) {
        TrailingStartLower(s, lo, k - 1);
      }
    }
  }

  /** The keyword normalisation of the matcher, `keyword.strip().lower()`. */
  function Normalise(s: string): (r: string)
    ensures IsTrimmed(r)
    ensures |r| <= |s|
  {
    StripLowerCommute(s);
    StripTrims(Lower(s));
    Lower(Strip(s))
  }

  /** `strip().lower()` is the lower-cased infix left after cutting the
      leading and trailing whitespace runs, and has no upper-case letter. */
  lemma NormaliseInfix(s: string)
    ensures exists i, j :: StripsTo(s, i, j) && Normalise(s) == Lower(s[i..j])
    ensures Lower(Normalise(s)) == Normalise(s)
  {
    StripInfix(s);
    LowerIdempotent(Strip(s));
  }

  /** Normalising a normalised keyword changes nothing. */
  lemma NormaliseIdempotent(s: string)
    ensures Normalise(Normalise(s)) == Normalise(s)
  {
    StripTrimmed(Normalise(s));
    LowerIdempotent(Strip(s));
  }

  /** `needle` occurs in `hay` at position `i`. */
  predicate OccursAt(hay: string, needle: string, i: int) {
    0 <= i && i + |needle| <= |hay| && hay[i..i + |needle|] == needle
  }

  /** Python's `needle in hay`: a left-to-right scan for a position where
      `needle` is a prefix of the rest of `hay`. */
  function Contains(hay: string, needle: string): (r: bool)
    ensures r <==> exists i :: OccursAt(hay, needle, i)
  {
    if needle <= hay then
      assert OccursAt(hay, needle, 0);
      true
    else if |hay| == 0 then
      false
    else
      var r := Contains(hay[1..], needle);
      if r then
        var i :| OccursAt(hay[1..], needle, i);
        assert OccursAt(hay, needle, i + 1);
        true
      else
        assert forall i :: OccursAt(hay, needle, i) ==> i > 0 && OccursAt(hay[1..], needle, i - 1);
        false
  }

  /** A string equal to the needle contains it. */
  lemma EqualContains(hay: string, needle: string)
    requires hay == needle
    ensures Contains(hay, needle)
  {
    assert OccursAt(hay, needle, 0);
  }
}

=== FILE: trend_cache.dfy ===
/** The trend cache shared by the extraction script (which writes it) and
    the API backend (which reads it): an ordered list of JSON records. */
module TrendCache {
  import opened Wrappers
  import opened Seqs

  /** One cached record. `trendScore` is `None` where the provider's value
      was not numeric (NaN); `category` is `None` when the key is absent. */
  datatype TrendRecord = TrendRecord(keyword: string, date: string, trendScore: Option<int>, category: Option<string>)

  /** `[t for t in data if t['keyword'] == keyword]`. */
  function RecordsFor(data: seq<TrendRecord>, keyword: string): (r: seq<TrendRecord>)
    ensures forall t :: t in r ==> t in data && t.keyword == keyword
    ensures forall t :: t in data && t.keyword == keyword ==> t in r
    ensures IsSubsequence(r, data)
    decreases |data|
  {
    if |data| == 0 then []
    else
      var rest := RecordsFor(data[1..], keyword);
      assert data == [data[0]] + data[1..];
      if data[0].keyword == keyword then
        ConsSubsequence(data[0], rest, data[1..]);
        [data[0]] + rest
      else
        SkipSubsequence(data[0], rest, data[1..]);
        rest
  }

  /** Selecting by keyword distributes over concatenation. */
  lemma {:induction false} RecordsForAppend(a: seq<TrendRecord>, b: seq<TrendRecord>, keyword: string)
    ensures RecordsFor(a + b, keyword) == RecordsFor(a, keyword) + RecordsFor(b, keyword)
    decreases |a|
  {
    if |a| > 0 {
      assert (a + b)[1..] == a[1..] + b;
      assert (a + b)[0] == a[0];
      RecordsForAppend(a[1..], b, keyword);
    } else {
      assert a + b == b;
    }
  }

  /** The keywords of a list of records, as a set. */
  function KeywordsIn(data: seq<TrendRecord>): set<string> {
    set t | t in data :: t.keyword
  }
}

=== FILE: wrappers.dfy ===
/** Failure-carrying return types used where the modelled code either
    returns nothing or raises. */
module Wrappers {

  /** A value that may be absent: a missing CSV cell, a JSON key that is not
      there, a NaN score, an optional query parameter. */
  datatype Option<+T> = None | Some(value: T) {
    /** The value, or `default` when there is none. */
    function GetOr(default: T): T {
      match this
      case Some(v) => v
      case None => default
    }
  }

  /** The outcome of a call that can raise: `Failure` carries what was raised. */
  datatype Result<+R, +E> = Success(value: R) | Failure(error: E)
}
